=== FILE: README.md ===
# Token gating engine — a Dafny model

This project models the access-control core of a token-gating plugin for a
virtual-space host. An administrator attaches **token rules** to the whole
space or to one region. A rule names a Vatom Smart NFT campaign, a Vatom coin
business or an Ethereum contract, and may carry attribute filters called
**traits**. The plugin does five things:

- It turns each rule into a permission **query** for the host's permission
  service.
- It checks the user **on entering the space**. A denial there is a thrown
  error.
- It **re-checks every 15 seconds while inside the space**. A rule no longer
  met starts a 60-second removal timer.
- It checks each **region** on a 100 ms tick. The first tick inside decides
  once whether the user may stay. A refused user is moved back out, and an
  admin is let through with a notice.
- It keeps the rule list in step across users through panel messages and
  refresh broadcasts.

The admin panel edits rules field by field. It adds, deletes and fills in
traits, and it validates contract addresses.

Modules, one per file, in dependency order:

| file | module | what it holds |
|---|---|---|
| `wrappers.dfy` | `Wrappers` | `Option` and `Result` |
| `text.dfy` | `Text` | JavaScript string behaviour the core relies on: truthiness, `split`/`join`, `Number()` on digit strings, decimal rendering |
| `tokens.dfy` | `Tokens` | rules, traits, settings, the space/region scope tests, single-field edits, `tokenTraitsToString` |
| `query.dfy` | `Query` | the query tree built by `constructQuery`, what a query means over a world of holdings, and an independent statement of when a rule is met |
| `dates.dfy` | `Dates` | `convertToDate`, the active-time window, `formatDateString` |
| `geometry.dfy` | `Geometry` | `userInsideRegion` and the fallback push out of a region |
| `spacegate.dfy` | `SpaceGate` | `gateSpace`, `onSpaceEnter`, `kickUser` and `onUnload` as state transitions over the removal timer |
| `regiongate.dfy` | `RegionGate` | `TokenGate`: the region's rule list and the `gateRegion` tick |
| `tokenlist.dfy` | `TokenList` | the rule-list and settings branches of `onMessage` |
| `traiteditor.dfy` | `TraitEditor` | `addTrait`, `deleteTrait`, `updateTrait` and `validateContractAddress` |

**How the host is modelled**
- Calls into the host become inputs: the permission service's answers (one
  `bool` per rule, in list order), the user's position, the admin flag, the
  clock and the direction-vector helper.
- Timers are state. The pending removal is `SpaceState.eviction`. Starting,
  cancelling and firing it appear in an explicit list of effects, so "at most
  one pending" is checked by replaying that list (`SpaceGate.Replay`).
- Region teleports and alerts are effects of `RegionGate.Step`.

**Where the code behaves unexpectedly, the model follows the code:**
- Every branch of `constructQuery` yields a query, so the "query is null"
  fallbacks never run and are not modelled.
- The Vatom-NFT branch reads the trait combinator from the trait array, not
  from the rule. The model keeps that (`Query.ConstructQuery`) and states the
  rule-level reading as the corrected definition
  (`Query.ConstructQueryIntended`).
- The region gate keeps independent flags (`regionCheck`, `regionAccess`,
  `removingUser`, `dateTimeBlocked`), and so does the model. Their invariant
  `RegionGate.Consistent` is proved to be preserved.
- The space gate is modelled twice, as one function with a `Policy`
  parameter. `AsWritten` follows the code. `Corrected` applies the two fixes
  listed under "## Findings": a closed window stops the pass, and a rule
  without a trait list no longer throws. `SpaceGate.CorrectionsAgree` proves
  the two agree whenever neither fix applies.

The line `time - time.map(Number)` in `convertToDate` discards its result.
This changes nothing, because `new Date` converts its string arguments to
numbers itself.

## Model

| member | source | states |
|---|---|---|
| Text.JoinSplitIsReplaceAll | src/index.js:572-576 | splitting on a character and joining with a separator puts the separator exactly where each occurrence of the character was, and keeps everything else |
| Text.JoinSplitRoundTrip | src/index.js:572-576 | joining the pieces with the character they were split on gives back the original string |
| Text.SplitPieces | src/index.js:367-373 | a string splits into two or more pieces exactly when it contains the separator, which is why `date.split('T')[1]` is missing for a string without 'T' |
| Text.NumberOfNatToString | src/index.js:367-373 | `Number` reads back every decimal rendering of a counter as that counter, so the picker's date fields convert to the numbers written |
| Tokens.PanelChoicesSelect | src/index.js:482-504 | the stored choices "and" and "or", and the default "and", select conjunction and disjunction; the label "And" and an unset field select disjunction, because only the exact string "and" is compared |
| Tokens.Apply | src/index.js:168 | a field update never changes the rule's id, and only a `regionID` update can change its region; setting traits always leaves a trait list |
| Tokens.ZoneFieldDoesNotRescope | src-panel/Token.js:141 | editing the panel's Zone ID field changes neither the space scope nor any region scope of the rule, because the engine reads `regionID` |
| Tokens.TraitLines | src/index.js:561-569 | one line per trait, in order, each being `key - value` with a missing side printed as `null` |
| Tokens.TokenTraitsToString | src/index.js:561-569 | no traits give the empty string, and one trait gives just its line |
| Tokens.TokenTraitsToStringCons | src/index.js:561-569 | several traits list the first trait's line, one separator, then the listing of the rest |
| Tokens.TokenTraitsToStringAppend | src/index.js:561-569 | the listing of two non-empty trait lists is the first listing, one separator, then the second |
| Query.UsableTraits | src/index.js:277-285 | every kept trait has a truthy key and value, and nothing is dropped exactly when all traits are usable |
| Query.UsableTraitsMembers | src/index.js:277-285 | the kept traits are exactly the traits with a truthy key and value |
| Query.UsableTraitsAppend | src/index.js:277-285 | filtering preserves order: the kept traits of a concatenation are the kept traits of each part, in turn |
| Query.BuildQuery | src/index.js:255-358 | every branch yields a query, so none is null; its threshold is `minAmountHeld`; non-Vatom rules query through the user's "eth" identities; a coin rule counts by business exactly when `businessID` is truthy; without traits nothing is filtered |
| Query.ConstructQuery | src/index.js:272-292 | as written, a Vatom-NFT rule with traits always filters with a disjunction |
| Query.ConstructQueryIntended | src/index.js:333-348 | with the rule's own combinator read on both branches, the filter is a conjunction exactly when the rule says "and" |
| Query.MatchOfMeaning | src/index.js:288-291 | an `eq` on a selected attribute holds of an item exactly when the item carries that trait's key with that value |
| Query.AllOfUsableMeaning | src/index.js:288 | the "and" filter holds exactly when every usable trait matches the item |
| Query.AnyOfUsableMeaning | src/index.js:291 | the "or" filter holds exactly when some trait matches the item |
| Query.BuildQueryMeaning | src/index.js:255-358 | the built query holds in a world exactly when the rule is met there according to the independent reference definition `RuleMetWith` |
| Query.ConstructQueryMeaning | src/index.js:287-292 | as written, a rule is met exactly when it is met with the Vatom-NFT traits combined by "or" |
| Query.ConstructQueryIntendedMeaning | src/index.js:343-348 | the corrected query is met exactly when the rule is met under its own trait combinator |
| Query.CoinQueryMeaning | src/index.js:300-312 | a coin rule is met when the user owns at least `minAmountHeld` vatoms of its business if `businessID` is truthy, and of any kind otherwise |
| Query.VatomNftCombinatorCounterexample | src/index.js:287 | a rule asking for "and" of two traits is met, as written, by a wallet whose single vatom has only one of them; the corrected query rejects it |
| Query.DroppedTraitsUnderAnd | src/index.js:333-345 | under "and", traits that all lack a key or value filter nothing, and the rule behaves as if it had no traits |
| Query.DroppedTraitsUnderOr | src/index.js:333-348 | under "or", a non-empty trait list whose traits all lack a key or value matches nothing, so a rule with a positive threshold is never met |
| Dates.ConvertToDate | src/index.js:361-378 | an unset or empty date gives null; otherwise the call throws exactly when the string has no 'T', and gives a date (possibly invalid) when it does not throw |
| Dates.ConvertFormattedDate | src/index.js:361-378 | reading back a date-picker string `YYYY-MM-DDTHH:MM` gives the time it was written from |
| Dates.BeforeIsStrictTotalOrder | src/index.js:453-468 | the `<` and `>` comparisons of two valid dates form a strict total order |
| Dates.ParseWindow | src/index.js:444-446 | reading the window throws exactly when a set, non-empty bound has no 'T'; otherwise each side of the window is unbounded exactly when its setting is unset or empty |
| Dates.ParseFormattedWindow | src/index.js:444-468 | a window saved from the two pickers reads back as the two instants picked, and it refuses exactly the times before the first or after the second |
| Dates.ParseHalfOpenWindow | src/index.js:444-468 | with only a start picked, the window refuses exactly the times before it |
| Dates.InvertedWindowAlwaysClosed | src/index.js:453-480 | nothing checks that the start precedes the end; an inverted window refuses at every time |
| Dates.UnusableBoundsNeverClose | src/index.js:453-480 | an unset or invalid bound never refuses, because comparisons with an invalid date are false |
| Dates.FormatDateString | src/index.js:572-576 | the result has the same length; every 'T' becomes a space and every other character is kept |
| Geometry.UserInsideRegion | src/index.js:929-938 | a point is inside exactly when its distance from the centre is strictly less than half the extent on every axis; a region that cannot be found contains no one |
| Geometry.FaceIsOutside | src/index.js:929-936 | a point on any face of the box is outside |
| Geometry.CenterInsideIffNonFlat | src/index.js:929-936 | the centre is inside exactly when every extent is positive |
| Geometry.Nudge | src/index.js:800-812 | the push at src/index.js:802-810: the height is kept, and the point moves one unit along x when the x scale is not the larger one, and one unit along z when the z scale is not the larger one |
| SpaceGate.SpaceTokensMembers | src/index.js:408-409 | the space rules are exactly the rules whose region id is unset or empty |
| SpaceGate.Loop | src/index.js:416-545 | a pass over the rules grants only at a held rule and leaves no removal pending; at entry a grant needs an open window; an unreadable window never grants; under the correction a closed window never grants; a denial is thrown only at entry; a TypeError needs a rule without a trait list that is not held |
| SpaceGate.GateSpaceWith | src/index.js:396-547 | the admin early return happens exactly for an admin inside the space, the "no space rules" return exactly otherwise with no space rules; a grant needs a held rule and clears the timer, and at entry an open window; a malformed bound never grants; a thrown denial only at entry; a TypeError only at a rule without traits that is not held |
| SpaceGate.GateSpace | src/index.js:509-512 | as written, the call throws a TypeError only when a space rule without a trait list is not held |
| SpaceGate.GateSpaceIntended | src/index.js:453-512 | corrected, the call never throws a TypeError, and a closed window never grants, inside or at entry |
| SpaceGate.Enter | src/index.js:381-394 | entry never ends undecided; a non-admin who is not refused gets the re-check interval; a thrown check leaves the interval as it was |
| SpaceGate.FireEviction | src/index.js:550-558 | the timer firing shows the pending reason, stops the re-check and leaves nothing pending; with no timer pending nothing happens |
| SpaceGate.Unload | src/index.js:75-80 | unloading leaves no removal pending and no re-check running, by a timer sequence that only clears what is set, so no removal can fire afterwards |
| SpaceGate.ClearAllDiscipline | src/index.js:399-406 | clearing the interval and timer only cancels a timer that is pending, and leaves none |
| SpaceGate.GateSpaceTimerDiscipline | src/index.js:396-547 | in any call, a timer is started only when none is pending and cancelled only when one is; the timer left in the state is the one the operations leave pending |
| SpaceGate.GrantAndAdminClearTimer | src/index.js:399-406 | a grant leaves no removal pending; an admin inside has both the removal and the re-check interval cleared |
| SpaceGate.NoSpaceRulesNoAction | src/index.js:408-413 | when every rule belongs to a region, nothing is refused, no timer starts, and the pending timer is kept |
| SpaceGate.AndEntry | src/index.js:436-518 | under "and" at entry, entry is granted exactly when the window is open and every space rule is held; when all are held, a malformed bound throws and a closed window refuses; otherwise the first rule not held decides: refused naming it, or a TypeError when it has no trait list, unless an earlier held rule already met a closed or malformed window; no timer is touched |
| SpaceGate.OrEntry | src/index.js:436-541 | under "or" at entry, entry is granted exactly when the window is open and some rule is held with no rule before it lacking a trait list; the first held rule meets the date check, and a rule before it without traits throws; with none held and every rule listing traits, entry is refused naming the last rule |
| SpaceGate.GuardedOrEntry | src/index.js:509-541 | with the trait-list guard, entry under "or" is granted exactly when the window is open and some space rule is held |
| SpaceGate.MissingTraitListCounterexample | src/index.js:509-512 | as written, a fresh rule without traits that is not held, followed by a held rule, makes entry under "or" throw; with the guard it is granted |
| SpaceGate.AndInsideSchedulesFirstMissing | src/index.js:506-518 | under "and" inside the space with the window open, the first rule not held starts the removal naming it and nothing is granted, unless a rule without a trait list throws first |
| SpaceGate.OrInsideSchedulesLast | src/index.js:509-535 | under "or" inside the space with no rule held, the last rule starts the removal naming itself; a rule without a trait list makes the call throw before anything starts |
| SpaceGate.CorrectionsAgree | src/index.js:396-547 | while the window does not refuse and every space rule lists its traits, the corrected gate behaves exactly as the code does |
| SpaceGate.EntryIsDecisive | src/index.js:381-394 | the entry check never ends undecided and never starts a removal timer |
| SpaceGate.EnterStartsRecheck | src/index.js:381-394 | entering with no removal pending leaves none pending, and an admitted non-admin gets the periodic re-check |
| SpaceGate.ClosedWindowNeverEvictsAsWritten | src/index.js:453-503 | as written, a user inside whose window has closed while every rule is still held gets the notice, but the timer is cancelled in the same call and no removal is left |
| SpaceGate.ClosedWindowEvictsIntended | src/index.js:453-480 | when a closed window counts as a denial, a user inside is never granted and always has a removal pending |
| RegionGate.RegionTokensMembers | src/index.js:647 | the region's rules are exactly those whose region id equals the region's id |
| RegionGate.SetRegionTokensContents | src/index.js:636-673 | an event for another region changes nothing; otherwise the list holds exactly the region's rules, in order, each with its own answer |
| RegionGate.SetRegionTokens | src/index.js:636-673 | an event for another region keeps the list; otherwise the list has one entry per answer, each carrying its answer and a rule of this region |
| RegionGate.RegionSettingsLastWins | src/index.js:623-633 | after any run of settings broadcasts, the region holds the settings of the last one addressed to it, and its own settings when none was |
| RegionGate.CheckLoopMeaning | src/index.js:818-857 | on a non-empty list the stale flag is ignored: access is the "and"/"or" of the rules' answers, and on refusal the rule recorded as missing is the last one not held |
| RegionGate.Step | src/index.js:704-904 | with no rules a tick does nothing; a teleport or alert happens only inside after a checked refusal, not while removing; an admin only ever gets alerts; the region becomes checked only inside; access is gained only by an admin or by the arrival check when the rules admit; the removal latch is set only for a non-admin, with a teleport |
| RegionGate.ArrivalCheck | src/index.js:818-891 | the first tick inside marks the region checked; access is the combined answer unless the window is closed, which sets the date-block flag |
| RegionGate.MalformedDateNeverChecks | src/index.js:859-891 | with a date bound lacking 'T', every arrival tick that the rules admit throws and the region never becomes checked |
| RegionGate.StepPreservesConsistent | src/index.js:704-904 | every tick keeps two facts: a checked refusal always has a reason, and a user is moved out only after a refusal; so building the denial message never fails |
| RegionGate.FreshIsConsistent | src/index.js:583-595 | the initial flags satisfy that invariant |
| RegionGate.OutsideResets | src/index.js:896-902 | outside the region the checked, removing and date-block flags are cleared and the position is recorded |
| RegionGate.AdminBypass | src/index.js:729-748 | a refused admin is shown the reason and let in, and is not moved |
| RegionGate.RefusedUserIsMovedOut | src/index.js:751-798 | a refused user with a recorded position is moved once, to a point just past the crossing, else to the point recorded earlier, else to where they were last seen outside; they are told the reason and marked as being removed |
| RegionGate.UnknownPositionNudges | src/index.js:799-813 | with no recorded position, a refused user is pushed one step on every tick |
| RegionGate.NoTeleportStorm | src/index.js:718-719 | once a user is being moved out, further ticks inside do nothing until one sees them outside |
| RegionGate.AdmittedStaysAdmitted | src/index.js:722-723 | an admitted user is left alone for the rest of the visit |
| TokenList.ShortUserId | src/index.js:60-61 | the short user id contains no ':' |
| TokenList.ShortUserIdPrefix | src/index.js:60-61 | the short id ignores any prefix that ends in ':' |
| TokenList.ShortUserIdPlain | src/index.js:60-61 | an id without ':' is its own short form |
| TokenList.FindIndex | src/index.js:162 | the first position holding the id, or none exactly when no rule has it |
| TokenList.Update | src/index.js:158-170 | fails exactly when no rule has the id; otherwise only the first matching rule changes, by that one field, and every id is kept |
| TokenList.Delete | src/index.js:181-193 | fails exactly when no rule has the id; otherwise one rule fewer |
| TokenList.DeleteRemovesOne | src/index.js:181-193 | the removed rule has that id, and the rest of the list is kept as a multiset |
| TokenList.DeleteKeepsOrder | src/index.js:181-193 | the rules before and after the removed one keep their order |
| TokenList.DeleteAfterAdd | src/index.js:143-193 | adding a rule with a fresh id and then deleting that id gives the original list |
| TokenList.UpdateIdempotent | src/index.js:158-170 | sending the same field update twice is sending it once |
| TokenList.ListReplacements | src/index.js:143-218 | `add-token` appends the rule after the existing ones; `set-tokens` replaces the list |
| TokenList.OnMessage | src/index.js:96-244 | a message fails exactly when it edits or deletes an id no rule has; the user id never changes; rule messages leave the settings alone, and settings and read messages leave the rules alone; a region edit changes no state here; a settings refresh from another user replaces the space settings, whatever region it was sent for |
| TokenList.Broadcast | src/index.js:112-218 | only a handled message broadcasts; the broadcast is a refresh signed by this user; refreshes are never re-broadcast; every panel message that changed the state is broadcast |
| TokenList.OwnRefreshIgnored | src/index.js:221-246 | a refresh sent by the same user changes nothing |
| TokenList.BroadcastConverges | src/index.js:112-246 | the refresh a change broadcasts is a no-op for its sender; after a rule change or a space-level settings edit every other user ends with the sender's rules or space settings, while after a region edit they take the region's settings as their space settings |
| TokenList.RegionRefreshOverwritesSpaceSettings | src/index.js:120-129 | as written, a region edit leaves the sender's space settings alone, and it broadcasts the region's settings, which every other user stores as their space settings; users who agreed before then disagree |
| TokenList.OnMessageIntended | src/index.js:221-246 | the corrected handler ignores a settings refresh sent for a region, and fails exactly when the handler as written fails |
| TokenList.BroadcastConvergesIntended | src/index.js:112-246 | with the corrected handler, every broadcast is a no-op for its sender; every other user ends with the sender's rules, or with the sender's space settings after a space-level edit, and their space settings change only then; users who agreed before still agree |
| TraitEditor.AddTrait | src-panel/Token.js:29-36 | exactly one trait is appended, with the fresh id and no key or value; the existing traits are unchanged |
| TraitEditor.AddTraitName | src-panel/Token.js:31 | the new trait is named "Trait " followed by the new list length |
| TraitEditor.AddedTraitNotUsed | src-panel/Token.js:29-36 | a newly added trait takes no part in the query until it is filled in |
| TraitEditor.DeleteTrait | src-panel/Token.js:39-42 | no trait with the id survives |
| TraitEditor.DeleteTraitMembers | src-panel/Token.js:39-42 | exactly the traits with another id survive |
| TraitEditor.DeleteTraitAppend | src-panel/Token.js:39-42 | deletion works piecewise, so the survivors keep their order |
| TraitEditor.DeleteTraitAbsent | src-panel/Token.js:39-42 | a list without the id is unchanged |
| TraitEditor.DeleteTraitIdempotent | src-panel/Token.js:39-42 | deleting twice is deleting once |
| TraitEditor.DeleteAfterAddTrait | src-panel/Token.js:29-42 | deleting a just-added trait gives the list back |
| TraitEditor.UpdateTrait | src-panel/Token.js:45-53 | fails exactly when no trait has the id and there is something to write; otherwise the length is kept |
| TraitEditor.UpdateTraitFrame | src-panel/Token.js:45-53 | only the first trait with the id changes; its key and value are overwritten only by truthy new ones; ids and names are kept |
| TraitEditor.UpdateTraitIdempotent | src-panel/Token.js:45-53 | applying the same edit twice is applying it once |
| TraitEditor.UpdateTraitNeverClears | src-panel/Token.js:45-53 | a key or value once set is never cleared by an edit |
| TraitEditor.FilledTraitIsUsed | src-panel/Token.js:45-53 | filling in both the key and the value of an existing trait makes the query use it |
| TraitEditor.ValidateContractAddress | src-panel/Token.js:56-77 | an empty address sends four updates, the first two clearing the address and its verdict; any other sends two; the last two always store the raw address and the validator's verdict on it |
| TraitEditor.ValidateContractAddressResult | src-panel/Token.js:56-77 | for every address, including the empty one, the rule ends holding the raw address and the validator's verdict on it, and no other field changes |

## Left out

- Host calls (`queryAllowlPermission`, `getPosition`, `setPosition`, `isAdmin`, `objects.get`, `getComponentInstances`): their results are inputs. A failed permission call is not modelled.
- Timers and `async` interleaving: each call and each tick is one atomic step, and the 15-second and 100 ms intervals are not modelled. Both reads of the position within one tick are taken to be the same position.
- `getNormalizedDirectionVector`: a function parameter, because its square root and normalisation are floating-point arithmetic.
- `new Date()` normalisation: out-of-range fields and two-digit years are not modelled, and neither are time zones or seconds. Dates compare field by field, and the clock is an input.
- `Number()` on a date field accepts only digit strings. Whitespace, signs, exponents and hexadecimal forms are read as NaN.
- Denial and notice texts, HTML and `marked`: the model records only which reason is shown.
- `minAmountHeld` is an integer in every rule of the model. In the code, a rule created in the panel is just `{id, name}` (src-panel/TokenList.js:31), and it has no `minAmountHeld` until the amount field is edited. The panel shows `minAmountHeld ?? 1` (src-panel/Token.js:135) for such a rule, while `constructQuery` sends the undefined value as the `gte` bound (src/index.js:288-352). What the permission service does with a missing bound is unknown, so such rules are not modelled. The panel may also store the amount as a string, and JavaScript's mixed string/number comparison is not modelled either.
- The region branch of `update-settings` (src/index.js:120-129): the edit of the region component's settings happens in the host, so `TokenList.UpdateRegionSettings` receives the resulting settings as an input. Its broadcast is modelled: a `refresh-settings` that carries the region's id and settings. The `refresh-settings` handler (src/index.js:235-246) ignores that id, so every other user's space settings become the region's settings. The sender's space settings stay as they were (see "## Findings").
- `get-tokens` and `get-settings` change no state. The postMessage, `setField` and `messages.send` transports are left out; `TokenList.Broadcast` says only what is broadcast.
- The "query is null, allow entry" fallbacks (src/index.js:426-427 and 665-668) are unreachable, because every branch of `constructQuery` yields a query.
- React rendering, the settings panel, the token-list panel and `src/constants.js` are not part of this model.
- `Query.Holds`: the permission service's query language is not part of this model, so its meaning here is assumed rather than taken from the code. An empty `or` is false, an empty `and` is true, and `eq` compares strings exactly. When `campaignID` is missing, the query sends `campaign: ""` (src/index.js:271). The model compares that like any other id, so only an item whose campaign is the empty string matches.
- The trait editor's operations take the rule's trait list. The panel renders `token.traits.length` (src-panel/Token.js:156), which already throws for a rule without a list, so the editor never sees one.
- `SpaceGate.FireEviction`: in the source, `kickUser` leaves the stale timer handle in `missingTokenTimer`. The model clears the pending flag, because nothing runs after the shutdown screen.

## Findings

| source | as written | input that shows it | evidently intended | confidence | as-written member | corrected member |
|---|---|---|---|---|---|---|
| src/index.js:287 | the Vatom-NFT branch reads the combinator from `token.traits.multiTraitCondition`, a property of the trait array that is never set, so traits are always combined with "or" | a rule with traits color=red and size=L and combinator "and"; a wallet with one vatom of that campaign that has only color=red. The rule is met | read `token.multiTraitCondition`, as the Ethereum branch does at line 343 | not executed; high | Query.VatomNftCombinatorCounterexample | Query.ConstructQueryIntendedMeaning |
| src/index.js:512 | the denial message reads `token?.traits.length`; a rule created in the panel has no `traits` until a trait is added, so a missed rule without traits throws a TypeError instead of being denied | under "or", a rule with no trait list that the user does not hold, followed by a rule the user holds. Entry throws before the held rule is reached | read `token?.traits?.length`, as the region gate does at line 737 | not executed; high | SpaceGate.MissingTraitListCounterexample | SpaceGate.GuardedOrEntry |
| src/index.js:235-246 | the `refresh-settings` handler stores `e.settings` as the space settings without reading `e.regionID`, but the region branch of `update-settings` sends the region's settings in that message (line 127) | one user edits a region's date restriction. That user's space settings are unchanged, while every other user's space settings become the region's settings | forward a refresh that carries a `regionID` to that region through `set-region-settings`, as `refresh-tokens` does at line 231, and leave the space settings alone | not executed; high | TokenList.RegionRefreshOverwritesSpaceSettings | TokenList.BroadcastConvergesIntended |
| src/index.js:453-503 | inside the space, a closed date window starts the 60-second removal, then the same pass goes on to the grant branch, which cancels the timer | a user inside the space, `restrictDate` on, `dateTo` in the past, every space rule held. The removal is started and cancelled in one call | a closed window removes the user, as it refuses entry on arrival | not executed; medium | SpaceGate.ClosedWindowNeverEvictsAsWritten | SpaceGate.ClosedWindowEvictsIntended |

=== FILE: dates.dfy ===
/** The date handling of the gating engine: reading the date picker's
    "YYYY-MM-DDTHH:MM" strings (`convertToDate`), the active-time window of
    the settings, and the display form of a date (`formatDateString`). */
module Dates {
  import opened Wrappers
  import opened Text
  import opened Tokens

  /** A local calendar time, compared field by field from the year down.
      Dates read from the settings have `millis == 0`; the current time may not. */
  datatype DateTime = DateTime(year: nat, month: nat, day: nat, hour: nat, minute: nat, millis: nat)

  /** `a < b` on the `Date` objects the fields denote. */
  predicate Before(a: DateTime, b: DateTime) {
    if a.year != b.year then a.year < b.year
    else if a.month != b.month then a.month < b.month
    else if a.day != b.day then a.day < b.day
    else if a.hour != b.hour then a.hour < b.hour
    else if a.minute != b.minute then a.minute < b.minute
    else a.millis < b.millis
  }

  /** `Before` is a strict total order: irreflexive, transitive, and any two
      distinct times are ordered one way. */
  lemma BeforeIsStrictTotalOrder(a: DateTime, b: DateTime, c: DateTime)
    ensures !Before(a, a)
    ensures Before(a, b) && Before(b, c) ==> Before(a, c)
    ensures a != b ==> (Before(a, b) <==> !Before(b, a))
  {
  }

  /** A `Date` built from the parsed fields: valid, or "Invalid Date" when a
      field was NaN. Every comparison with an invalid date is false. */
  datatype DateValue = Valid(at: DateTime) | Invalid

  /** `convertToDate` throws when the string has no 'T': the time part is
      `undefined` and calling `split` on it raises a TypeError. */
  datatype DateError = NoTimePart

  /** Field `i` of a split string read with `Number`; a missing field is NaN. */
  function FieldAt(parts: seq<string>, i: nat): Option<nat> {
    if i < |parts| then NumberOf(parts[i]) else None
  }

  /** `convertToDate`: `null` (or an empty string) for an unset date, a
      failure when the string has no 'T', otherwise the date of the fields
      before and after the first 'T'. Extra fields are ignored. */
  function ConvertToDate(date: Option<string>): (r: Result<Option<DateValue>, DateError>)
    ensures !Truthy(date) ==> r == Success(None)
    ensures Truthy(date) ==> (r.Failure? <==> 'T' !in date.value)
    ensures r.Success? && Truthy(date) ==> r.value.Some?
  {
    if !Truthy(date) then Success(None)
    else
      var halves := Split(date.value, 'T');
      SplitPieces(date.value, 'T');
      if |halves| < 2 then Failure(NoTimePart)
      else
        var ymd := Split(halves[0], '-');
        var hm := Split(halves[1], ':');
        var fields := [FieldAt(ymd, 0), FieldAt(ymd, 1), FieldAt(ymd, 2), FieldAt(hm, 0), FieldAt(hm, 1)];
        if forall k :: 0 <= k < |fields| ==> fields[k].Some? then
          Success(Some(Valid(DateTime(fields[0].value, fields[1].value, fields[2].value,
                                      fields[3].value, fields[4].value, 0))))
        else
          Success(Some(Invalid))
  }

  /** A field as the date picker writes it: at least two digits. */
  function Pad2(n: nat): (s: string)
    ensures AllDigits(s) && NumberOf(s) == Some(n)
  {
    NumberOfNatToString(n);
    if n < 10 then
      LeadingZero(NatToString(n));
      "0" + NatToString(n)
    else NatToString(n)
  }

  /** The date picker's "YYYY-MM-DDTHH:MM" string for a time. */
  function FormatDateTime(d: DateTime): string {
    NatToString(d.year) + "-" + Pad2(d.month) + "-" + Pad2(d.day) + "T" + Pad2(d.hour) + ":" + Pad2(d.minute)
  }

  lemma SplitPair(a: string, b: string, c: char)
    requires c !in a && c !in b
    ensures Split(a + [c] + b, c) == [a, b]
  {
    SplitAtFirstSeparator(a, c, b);
    SplitWithoutSeparator(b, c);
  }

  lemma SplitTriple(a: string, b: string, e: string, c: char)
    requires c !in a && c !in b && c !in e
    ensures Split(a + [c] + b + [c] + e, c) == [a, b, e]
  {
    assert a + [c] + b + [c] + e == a + [c] + (b + [c] + e);
    SplitAtFirstSeparator(a, c, b + [c] + e);
    SplitPair(b, e, c);
  }

  /** The date and time halves of a picker string. */
  function DatePart(d: DateTime): string {
    NatToString(d.year) + "-" + Pad2(d.month) + "-" + Pad2(d.day)
  }

  function TimePart(d: DateTime): string {
    Pad2(d.hour) + ":" + Pad2(d.minute)
  }

  lemma HalvesOfFormatted(d: DateTime)
    ensures Split(FormatDateTime(d), 'T') == [DatePart(d), TimePart(d)]
    ensures Split(DatePart(d), '-') == [NatToString(d.year), Pad2(d.month), Pad2(d.day)]
    ensures Split(TimePart(d), ':') == [Pad2(d.hour), Pad2(d.minute)]
  {
    var y, mo, dd, h, mi := NatToString(d.year), Pad2(d.month), Pad2(d.day), Pad2(d.hour), Pad2(d.minute);
    DigitsAvoid(y, 'T'); DigitsAvoid(mo, 'T'); DigitsAvoid(dd, 'T');
    DigitsAvoid(h, 'T'); DigitsAvoid(mi, 'T');
    assert FormatDateTime(d) == DatePart(d) + ['T'] + TimePart(d);
    SplitPair(DatePart(d), TimePart(d), 'T');
    DigitsAvoid(y, '-'); DigitsAvoid(mo, '-'); DigitsAvoid(dd, '-');
    SplitTriple(y, mo, dd, '-');
    DigitsAvoid(h, ':'); DigitsAvoid(mi, ':');
    SplitPair(h, mi, ':');
  }

  /** Reading back a picker string gives the time it was written from (to the minute). */
  lemma ConvertFormattedDate(d: DateTime)
    requires d.millis == 0
    ensures ConvertToDate(Some(FormatDateTime(d))) == Success(Some(Valid(d)))
  {
    HalvesOfFormatted(d);
    NumberOfNatToString(d.year);
    var ymd := [NatToString(d.year), Pad2(d.month), Pad2(d.day)];
    var hm := [Pad2(d.hour), Pad2(d.minute)];
    assert FieldAt(ymd, 0) == Some(d.year);
    assert FieldAt(ymd, 1) == Some(d.month);
    assert FieldAt(ymd, 2) == Some(d.day);
    assert FieldAt(hm, 0) == Some(d.hour);
    assert FieldAt(hm, 1) == Some(d.minute);
    assert |FormatDateTime(d)| > 0;
  }

  /** The active-time window of a scope, each bound optional. */
  datatype Window = Window(from: Option<DateValue>, to: Option<DateValue>)

  /** Both bounds are converted before either is compared; either conversion may throw. */
  function ParseWindow(s: Settings): (r: Result<Window, DateError>)
    ensures r.Success? <==> ConvertToDate(s.dateFrom).Success? && ConvertToDate(s.dateTo).Success?
    ensures r.Failure? <==> (Truthy(s.dateFrom) && 'T' !in s.dateFrom.value) || (Truthy(s.dateTo) && 'T' !in s.dateTo.value)
    ensures r.Success? ==> (r.value.from.None? <==> !Truthy(s.dateFrom)) && (r.value.to.None? <==> !Truthy(s.dateTo))
  {
    var from := ConvertToDate(s.dateFrom);
    var to := ConvertToDate(s.dateTo);
    if from.Failure? then Failure(from.error)
    else if to.Failure? then Failure(to.error)
    else Success(Window(from.value, to.value))
  }

  /** A window saved from the panel's two pickers reads back as the two
      instants picked, and it refuses exactly the times before the first or
      after the second; a cleared picker leaves that side open. */
  lemma ParseFormattedWindow(s: Settings, a: DateTime, b: DateTime, now: DateTime)
    requires a.millis == 0 && b.millis == 0
    requires s.dateFrom == Some(FormatDateTime(a)) && s.dateTo == Some(FormatDateTime(b))
    ensures ParseWindow(s) == Success(Window(Some(Valid(a)), Some(Valid(b))))
    ensures Closed(ParseWindow(s).value, now) <==> Before(now, a) || Before(b, now)
  {
    ConvertFormattedDate(a);
    ConvertFormattedDate(b);
  }

  lemma ParseHalfOpenWindow(s: Settings, a: DateTime, now: DateTime)
    requires a.millis == 0
    requires s.dateFrom == Some(FormatDateTime(a)) && !Truthy(s.dateTo)
    ensures ParseWindow(s) == Success(Window(Some(Valid(a)), None))
    ensures Closed(ParseWindow(s).value, now) <==> Before(now, a)
  {
    ConvertFormattedDate(a);
  }

  /** `currentDate < dateFrom`, false for an unset or invalid bound. */
  predicate TooEarly(w: Window, now: DateTime) {
    w.from.Some? && w.from.value.Valid? && Before(now, w.from.value.at)
  }

  /** `currentDate > dateTo`, false for an unset or invalid bound. */
  predicate TooLate(w: Window, now: DateTime) {
    w.to.Some? && w.to.value.Valid? && Before(w.to.value.at, now)
  }

  /** The window refuses `now`. */
  predicate Closed(w: Window, now: DateTime) {
    TooEarly(w, now) || TooLate(w, now)
  }

  /** Nothing checks that `dateFrom` precedes `dateTo`: an inverted window
      refuses every time. */
  lemma InvertedWindowAlwaysClosed(w: Window, now: DateTime)
    requires w.from.Some? && w.from.value.Valid? && w.to.Some? && w.to.value.Valid?
    requires Before(w.to.value.at, w.from.value.at)
    ensures Closed(w, now)
  {
    var f, t := w.from.value.at, w.to.value.at;
    if !TooEarly(w, now) {
      BeforeIsStrictTotalOrder(t, f, now);
      if now != f {
        BeforeIsStrictTotalOrder(now, f, now);
      }
    }
  }

  /** A bound that is unset or not a valid date never refuses anyone. */
  lemma UnusableBoundsNeverClose(w: Window, now: DateTime)
    requires w.from.None? || w.from.value.Invalid?
    requires w.to.None? || w.to.value.Invalid?
    ensures !Closed(w, now)
  {
  }

  /** `formatDateString`: every 'T' becomes a space and nothing else changes. */
  function FormatDateString(date: string): (r: string)
    ensures |r| == |date|
    ensures forall i :: 0 <= i < |date| ==> r[i] == (if date[i] == 'T' then ' ' else date[i])
  {
    JoinSplitIsReplaceAll(date, 'T', " ");
    ReplaceAllByChar(date, 'T', ' ');
    Join(Split(date, 'T'), " ")
  }
}

=== FILE: geometry.dfy ===
/** Positions and zones of the host world, and the axis-aligned containment
    test the region gate runs every tick (`userInsideRegion`). */
module Geometry {
  import opened Wrappers

  datatype Vec3 = Vec3(x: real, y: real, z: real)

  function Plus(a: Vec3, b: Vec3): Vec3 {
    Vec3(a.x + b.x, a.y + b.y, a.z + b.z)
  }

  /** A zone as the host reports it: world centre and full extents (the
      half-extents are `bounds / 2`), plus the object's x and z scale. */
  datatype Zone = Zone(center: Vec3, bounds: Vec3, scaleX: real, scaleZ: real)

  function Abs(r: real): real {
    if r < 0.0 then -r else r
  }

  /** `userInsideRegion`: strictly between the zone's faces on all three
      axes. A zone that cannot be found (`None`) contains no one. */
  function UserInsideRegion(zone: Option<Zone>, p: Vec3): (inside: bool)
    ensures inside <==>
      zone.Some? &&
      2.0 * Abs(p.x - zone.value.center.x) < zone.value.bounds.x &&
      2.0 * Abs(p.y - zone.value.center.y) < zone.value.bounds.y &&
      2.0 * Abs(p.z - zone.value.center.z) < zone.value.bounds.z
  {
    match zone
    case None => false
    case Some(r) =>
      var minX := r.center.x - r.bounds.x / 2.0;
      var minY := r.center.y - r.bounds.y / 2.0;
      var minZ := r.center.z - r.bounds.z / 2.0;
      var maxX := r.center.x + r.bounds.x / 2.0;
      var maxY := r.center.y + r.bounds.y / 2.0;
      var maxZ := r.center.z + r.bounds.z / 2.0;
      p.x > minX && p.x < maxX && p.y > minY && p.y < maxY && p.z > minZ && p.z < maxZ
  }

  /** A point on a face of the box is outside it. */
  lemma FaceIsOutside(r: Zone, p: Vec3)
    requires p.x == r.center.x + r.bounds.x / 2.0 || p.x == r.center.x - r.bounds.x / 2.0 ||
             p.y == r.center.y + r.bounds.y / 2.0 || p.y == r.center.y - r.bounds.y / 2.0 ||
             p.z == r.center.z + r.bounds.z / 2.0 || p.z == r.center.z - r.bounds.z / 2.0
    ensures !UserInsideRegion(Some(r), p)
  {
  }

  /** The centre is inside exactly when the zone has positive extent on every axis. */
  lemma CenterInsideIffNonFlat(r: Zone)
    ensures UserInsideRegion(Some(r), r.center) <==> r.bounds.x > 0.0 && r.bounds.y > 0.0 && r.bounds.z > 0.0
  {
  }

  /** Fallback push when no earlier position is known: one unit along the
      zone's shorter horizontal axis, or along both when the scales are equal. */
  function Nudge(r: Zone, p: Vec3): (q: Vec3)
    ensures q.y == p.y
    ensures q.x - p.x == (if r.scaleX <= r.scaleZ then 1.0 else 0.0)
    ensures q.z - p.z == (if r.scaleZ <= r.scaleX then 1.0 else 0.0)
  {
    if r.scaleX > r.scaleZ then Vec3(p.x, p.y, p.z + 1.0)
    else if r.scaleX < r.scaleZ then Vec3(p.x + 1.0, p.y, p.z)
    else Vec3(p.x + 1.0, p.y, p.z + 1.0)
  }

  /** The host's `getNormalizedDirectionVector(from, to, 3)`: an offset of
      length 3 pointing from `to` towards `from`, or nothing when the two
      points coincide. Its arithmetic is not part of this model. */
  type DirectionFn = (Vec3, Vec3) -> Option<Vec3>
}

=== FILE: query.dfy ===
/** The permission query built from a token rule (`constructQuery`), the
    meaning of such a query over an abstract world of holdings, and a
    reference statement of when a rule is met. */
module Query {
  import opened Wrappers
  import opened Text
  import opened Tokens

  /** `{"eq": [{"select": ["it", "attributes", key]}, value]}` */
  datatype Match = AttrEq(key: string, value: string)

  /** `{"and": [...]}` or `{"or": [...]}` over attribute matches. */
  datatype Cond = AllOf(matches: seq<Match>) | AnyOf(matches: seq<Match>)

  /** The optional narrowing of a `get-vatoms` call. */
  datatype VatomScope =
    | ByCampaign(campaign: string, objectDefinition: string)
    | ByBusiness(business: string)
    | AllOwned

  /** A collection fetch: the owner's vatoms, or the Ethereum NFTs of one
      contract owned by the identity currently bound (`"$it.value"`). */
  datatype Source =
    | GetVatoms(owner: string, scope: VatomScope)
    | GetIdentityEthNfts(contract: string)

  /** A fetched collection, optionally filtered (`{"filter": ..., "by": ...}`). */
  datatype Collection = Every(source: Source) | Filtered(source: Source, filter: Cond)

  /** `{"gte": [{"count": c}, n]}`, or `{"any": {"fn": "get-idens", ...}, "by": q}`. */
  datatype Query =
    | AtLeast(count: Collection, min: int)
    | AnyIdentity(idenType: string, user: string, body: Query)

  /** The threshold a query compares its count with. */
  function Threshold(q: Query): int {
    match q
    case AtLeast(_, n) => n
    case AnyIdentity(_, _, body) => Threshold(body)
  }

  /** A trait takes part in the query only when both key and value are truthy. */
  predicate Usable(t: Trait) {
    Truthy(t.key) && Truthy(t.value)
  }

  /** The traits kept for the query, in their original order. */
  function UsableTraits(ts: seq<Trait>): (r: seq<Trait>)
    ensures forall k :: 0 <= k < |r| ==> Usable(r[k])
    ensures |r| <= |ts|
    ensures |r| == |ts| <==> forall k :: 0 <= k < |ts| ==> Usable(ts[k])
    decreases |ts|
  {
    if |ts| == 0 then []
    else if Usable(ts[0]) then [ts[0]] + UsableTraits(ts[1..])
    else UsableTraits(ts[1..])
  }

  /** The kept traits are exactly the usable traits of the list. */
  lemma {:induction false} UsableTraitsMembers(ts: seq<Trait>)
    ensures forall t :: t in UsableTraits(ts) <==> t in ts && Usable(t)
    decreases |ts|
  {
    if |ts| > 0 {
      UsableTraitsMembers(ts[1..]);
      assert ts == [ts[0]] + ts[1..];
    }
  }

  /** Filtering keeps order: the kept traits of `a + b` are those of `a` followed by those of `b`. */
  lemma {:induction false} UsableTraitsAppend(a: seq<Trait>, b: seq<Trait>)
    ensures UsableTraits(a + b) == UsableTraits(a) + UsableTraits(b)
    decreases |a|
  {
    if |a| == 0 {
      assert a + b == b;
    } else {
      assert (a + b)[0] == a[0];
      assert (a + b)[1..] == a[1..] + b;
      UsableTraitsAppend(a[1..], b);
      if Usable(a[0]) {
        calc {
          UsableTraits(a + b);
          [a[0]] + UsableTraits(a[1..] + b);
          [a[0]] + (UsableTraits(a[1..]) + UsableTraits(b));
          ([a[0]] + UsableTraits(a[1..])) + UsableTraits(b);
          UsableTraits(a) + UsableTraits(b);
        }
      } else {
        calc {
          UsableTraits(a + b);
          UsableTraits(a[1..] + b);
          UsableTraits(a[1..]) + UsableTraits(b);
          UsableTraits(a) + UsableTraits(b);
        }
      }
    }
  }

  /** A single trait is kept exactly when it is usable. */
  lemma UsableTraitsSingle(t: Trait)
    ensures UsableTraits([t]) == (if Usable(t) then [t] else [])
  {
    assert [t][1..] == [];
  }

  function MatchOf(t: Trait): Match
    requires Usable(t)
  {
    AttrEq(t.key.value, t.value.value)
  }

  function Matches(ts: seq<Trait>): (ms: seq<Match>)
    requires forall k :: 0 <= k < |ts| ==> Usable(ts[k])
    ensures |ms| == |ts|
    ensures forall k :: 0 <= k < |ts| ==> ms[k] == MatchOf(ts[k])
    decreases |ts|
  {
    if |ts| == 0 then [] else [MatchOf(ts[0])] + Matches(ts[1..])
  }

  /** The `by` clause for the usable traits under the given combinator. */
  function TraitCond(ts: seq<Trait>, c: Combinator): Cond {
    var ms := Matches(UsableTraits(ts));
    if c == And then AllOf(ms) else AnyOf(ms)
  }

  function VatomNftSource(user: string, t: Token): Source {
    GetVatoms(user, ByCampaign(t.campaignID.GetOr(""), t.objectID.GetOr("")))
  }

  function CoinSource(user: string, t: Token): Source {
    GetVatoms(user, if Truthy(t.businessID) then ByBusiness(t.businessID.value) else AllOwned)
  }

  function EthSource(t: Token): Source {
    GetIdentityEthNfts(t.contractAddress.GetOr(""))
  }

  /** The query for `t`, where `vatomCondition` is the raw combinator the
      Vatom-NFT branch reads. Every branch yields a query: none is null. */
  function BuildQuery(user: string, t: Token, vatomCondition: Option<string>): (q: Query)
    ensures Threshold(q) == t.minAmountHeld
    ensures q.AnyIdentity? <==> t.network != Some("vatom")
    ensures q.AnyIdentity? ==> q.idenType == "eth" && q.user == user && q.body.AtLeast?
    ensures t.network == Some("vatom") && t.kind != Some("nft") ==>
      q == AtLeast(Every(GetVatoms(user, if Truthy(t.businessID) then ByBusiness(t.businessID.value) else AllOwned)), t.minAmountHeld)
    ensures |TraitsOf(t)| == 0 ==> (q.AtLeast? ==> q.count.Every?) && (q.AnyIdentity? ==> q.body.count.Every?)
  {
    if t.network == Some("vatom") then
      if t.kind == Some("nft") then
        if |TraitsOf(t)| > 0 then
          AtLeast(Filtered(VatomNftSource(user, t), TraitCond(TraitsOf(t), CombinatorOf(vatomCondition))), t.minAmountHeld)
        else
          AtLeast(Every(VatomNftSource(user, t)), t.minAmountHeld)
      else
        AtLeast(Every(CoinSource(user, t)), t.minAmountHeld)
    else
      var body :=
        if |TraitsOf(t)| > 0 then
          AtLeast(Filtered(EthSource(t), TraitCond(TraitsOf(t), CombinatorOf(t.multiTraitCondition))), t.minAmountHeld)
        else
          AtLeast(Every(EthSource(t)), t.minAmountHeld);
      AnyIdentity("eth", user, body)
  }

  /** `constructQuery` as written. The Vatom-NFT branch reads the combinator
      from the trait array (`token.traits.multiTraitCondition`); a stored
      array carries no such property, so the value read is always unset and
      the traits are always combined with "or". */
  function ConstructQuery(user: string, t: Token): (q: Query)
    ensures Threshold(q) == t.minAmountHeld
    ensures t.network == Some("vatom") && t.kind == Some("nft") && |TraitsOf(t)| > 0 ==>
      q.AtLeast? && q.count.Filtered? && q.count.filter.AnyOf?
  {
    BuildQuery(user, t, None)
  }

  /** `constructQuery` with the Vatom-NFT branch reading the rule's own
      `multiTraitCondition`, as the Ethereum branch and the panel do. */
  function ConstructQueryIntended(user: string, t: Token): (q: Query)
    ensures Threshold(q) == t.minAmountHeld
    ensures t.network == Some("vatom") && t.kind == Some("nft") && |TraitsOf(t)| > 0 ==>
      q.AtLeast? && q.count.Filtered? && (q.count.filter.AllOf? <==> t.multiTraitCondition == Some("and"))
    ensures t.network != Some("vatom") && |TraitsOf(t)| > 0 ==>
      q.AnyIdentity? && q.body.AtLeast? && q.body.count.Filtered? && (q.body.count.filter.AllOf? <==> t.multiTraitCondition == Some("and"))
  {
    BuildQuery(user, t, t.multiTraitCondition)
  }

  // ----- Meaning of a query over a world of holdings -----

  /** A held item: a vatom or an Ethereum NFT, with the fields queries select on. */
  datatype Asset = Asset(
    owner: string, campaign: string, objectDefinition: string,
    business: string, contract: string, attributes: map<string, string>)

  /** A wallet identity linked to a user (`get-idens`). */
  datatype Identity = Identity(user: string, idenType: string, value: string)

  /** Everything the permission service can see. */
  datatype World = World(vatoms: seq<Asset>, ethNfts: seq<Asset>, identities: seq<Identity>)

  /** The number of items of `xs` that satisfy `p`. */
  function CountWhere(xs: seq<Asset>, p: Asset -> bool): (n: nat)
    ensures n <= |xs|
    decreases |xs|
  {
    if |xs| == 0 then 0 else (if p(xs[0]) then 1 else 0) + CountWhere(xs[1..], p)
  }

  /** Two tests that agree on every item count the same items. */
  lemma {:induction false} CountWhereAgree(xs: seq<Asset>, p: Asset -> bool, q: Asset -> bool)
    requires forall k :: 0 <= k < |xs| ==> p(xs[k]) == q(xs[k])
    ensures CountWhere(xs, p) == CountWhere(xs, q)
    decreases |xs|
  {
    if |xs| > 0 {
      CountWhereAgree(xs[1..], p, q);
    }
  }

  predicate MatchHolds(m: Match, a: Asset) {
    m.key in a.attributes && a.attributes[m.key] == m.value
  }

  predicate CondHolds(c: Cond, a: Asset) {
    match c
    case AllOf(ms) => forall m :: m in ms ==> MatchHolds(m, a)
    case AnyOf(ms) => exists m :: m in ms && MatchHolds(m, a)
  }

  predicate ScopeHolds(s: VatomScope, a: Asset) {
    match s
    case ByCampaign(c, o) => a.campaign == c && a.objectDefinition == o
    case ByBusiness(b) => a.business == b
    case AllOwned => true
  }

  /** Whether `a` is fetched by `src` when the bound identity is `it`. */
  predicate Fetches(src: Source, it: string, a: Asset) {
    match src
    case GetVatoms(owner, scope) => a.owner == owner && ScopeHolds(scope, a)
    case GetIdentityEthNfts(contract) => a.owner == it && a.contract == contract
  }

  function Pool(src: Source, w: World): seq<Asset> {
    if src.GetVatoms? then w.vatoms else w.ethNfts
  }

  function Count(c: Collection, w: World, it: string): nat {
    match c
    case Every(src) => CountWhere(Pool(src, w), (a: Asset) => Fetches(src, it, a))
    case Filtered(src, f) => CountWhere(Pool(src, w), (a: Asset) => Fetches(src, it, a) && CondHolds(f, a))
  }

  /** Whether the permission service answers `true` to `q`, with `it` bound. */
  predicate Holds(q: Query, w: World, it: string)
    decreases q
  {
    match q
    case AtLeast(c, n) => Count(c, w, it) >= n
    case AnyIdentity(kind, user, body) =>
      exists k :: 0 <= k < |w.identities| &&
        w.identities[k].user == user && w.identities[k].idenType == kind &&
        Holds(body, w, w.identities[k].value)
  }

  // ----- When a rule is met, stated from the rule itself -----

  /** Trait `tr` takes part (key and value set) and item `a` carries it. */
  predicate TraitMatches(tr: Trait, a: Asset) {
    Usable(tr) && tr.key.value in a.attributes && a.attributes[tr.key.value] == tr.value.value
  }

  /** The trait filter of a rule on one item: no filter when the rule has no
      traits; otherwise every (under And) or some (under Or) trait with a key
      and a value matches, the others being ignored. */
  predicate TraitsMet(t: Token, c: Combinator, a: Asset) {
    if |TraitsOf(t)| == 0 then true
    else if c == And then forall tr :: tr in TraitsOf(t) && Usable(tr) ==> TraitMatches(tr, a)
    else exists tr :: tr in TraitsOf(t) && TraitMatches(tr, a)
  }

  /** Item `a` counts for a Vatom-NFT rule: the user's, of the rule's campaign and object definition. */
  predicate NftCounts(user: string, t: Token, c: Combinator, a: Asset) {
    a.owner == user && a.campaign == t.campaignID.GetOr("") &&
    a.objectDefinition == t.objectID.GetOr("") && TraitsMet(t, c, a)
  }

  /** Item `a` counts for a Vatom coin rule: the user's, and of the rule's business when one is set. */
  predicate CoinCounts(user: string, t: Token, a: Asset) {
    a.owner == user && (Truthy(t.businessID) ==> a.business == t.businessID.value)
  }

  /** Item `a` counts for an Ethereum rule and wallet `owner`: that wallet's, under the rule's contract. */
  predicate EthCounts(owner: string, t: Token, a: Asset) {
    a.owner == owner && a.contract == t.contractAddress.GetOr("") &&
    TraitsMet(t, CombinatorOf(t.multiTraitCondition), a)
  }

  /** Whether `user` meets rule `t` in `w`, Vatom-NFT traits combined by `vatomCombinator`. */
  predicate RuleMetWith(user: string, t: Token, w: World, vatomCombinator: Combinator) {
    if t.network == Some("vatom") then
      if t.kind == Some("nft") then
        CountWhere(w.vatoms, (a: Asset) => NftCounts(user, t, vatomCombinator, a)) >= t.minAmountHeld
      else
        CountWhere(w.vatoms, (a: Asset) => CoinCounts(user, t, a)) >= t.minAmountHeld
    else
      exists k :: 0 <= k < |w.identities| &&
        w.identities[k].user == user && w.identities[k].idenType == "eth" &&
        CountWhere(w.ethNfts, (a: Asset) => EthCounts(w.identities[k].value, t, a)) >= t.minAmountHeld
  }

  /** One kept trait's match holds of an item exactly when the item carries the trait. */
  lemma MatchOfMeaning(tr: Trait, a: Asset)
    requires Usable(tr)
    ensures MatchHolds(MatchOf(tr), a) == TraitMatches(tr, a)
  {
  }

  /** The matches of a list of usable traits are exactly the traits' matches. */
  lemma {:induction false} MatchesMembers(r: seq<Trait>)
    requires forall k :: 0 <= k < |r| ==> Usable(r[k])
    ensures forall tr :: tr in r ==> Usable(tr) && MatchOf(tr) in Matches(r)
    ensures forall m :: m in Matches(r) ==> exists tr :: tr in r && Usable(tr) && m == MatchOf(tr)
    decreases |r|
  {
    if |r| > 0 {
      MatchesMembers(r[1..]);
      assert r == [r[0]] + r[1..];
      assert Matches(r) == [MatchOf(r[0])] + Matches(r[1..]);
    }
  }

  /** The conjunction of the kept traits' matches is the And trait filter. */
  lemma AllOfUsableMeaning(ts: seq<Trait>, a: Asset)
    ensures CondHolds(AllOf(Matches(UsableTraits(ts))), a) <==>
      forall tr :: tr in ts && Usable(tr) ==> TraitMatches(tr, a)
  {
    var r := UsableTraits(ts);
    UsableTraitsMembers(ts);
    MatchesMembers(r);
    if CondHolds(AllOf(Matches(r)), a) {
      forall tr | tr in ts && Usable(tr) ensures TraitMatches(tr, a) {
        MatchOfMeaning(tr, a);
      }
    }
    if forall tr :: tr in ts && Usable(tr) ==> TraitMatches(tr, a) {
      forall m | m in Matches(r) ensures MatchHolds(m, a) {
        var tr :| tr in r && Usable(tr) && m == MatchOf(tr);
        MatchOfMeaning(tr, a);
      }
    }
  }

  /** The disjunction of the kept traits' matches is the Or trait filter. */
  lemma AnyOfUsableMeaning(ts: seq<Trait>, a: Asset)
    ensures CondHolds(AnyOf(Matches(UsableTraits(ts))), a) <==>
      exists tr :: tr in ts && TraitMatches(tr, a)
  {
    var r := UsableTraits(ts);
    UsableTraitsMembers(ts);
    MatchesMembers(r);
    if CondHolds(AnyOf(Matches(r)), a) {
      var m :| m in Matches(r) && MatchHolds(m, a);
      var tr :| tr in r && Usable(tr) && m == MatchOf(tr);
      MatchOfMeaning(tr, a);
    }
    if exists tr :: tr in ts && TraitMatches(tr, a) {
      var tr :| tr in ts && TraitMatches(tr, a);
      MatchOfMeaning(tr, a);
      assert MatchOf(tr) in Matches(r);
    }
  }

  lemma TraitCondMeaning(t: Token, c: Combinator, a: Asset)
    requires |TraitsOf(t)| > 0
    ensures CondHolds(TraitCond(TraitsOf(t), c), a) == TraitsMet(t, c, a)
  {
    if c == And {
      AllOfUsableMeaning(TraitsOf(t), a);
    } else {
      AnyOfUsableMeaning(TraitsOf(t), a);
    }
  }

  /** The query built with combinator `vc` holds exactly when the rule is met with `vc`. */
  lemma BuildQueryMeaning(user: string, t: Token, vc: Option<string>, w: World)
    ensures Holds(BuildQuery(user, t, vc), w, "") == RuleMetWith(user, t, w, CombinatorOf(vc))
  {
    var q := BuildQuery(user, t, vc);
    var c := CombinatorOf(vc);
    if t.network == Some("vatom") {
      if t.kind == Some("nft") {
        var src := VatomNftSource(user, t);
        if |TraitsOf(t)| > 0 {
          var f := TraitCond(TraitsOf(t), c);
          forall k | 0 <= k < |w.vatoms|
            ensures CondHolds(f, w.vatoms[k]) == TraitsMet(t, c, w.vatoms[k])
          {
            TraitCondMeaning(t, c, w.vatoms[k]);
          }
          CountWhereAgree(w.vatoms,
            (a: Asset) => Fetches(src, "", a) && CondHolds(f, a),
            (a: Asset) => NftCounts(user, t, c, a));
        } else {
          CountWhereAgree(w.vatoms,
            (a: Asset) => Fetches(src, "", a),
            (a: Asset) => NftCounts(user, t, c, a));
        }
      } else {
        var src := CoinSource(user, t);
        CountWhereAgree(w.vatoms,
          (a: Asset) => Fetches(src, "", a),
          (a: Asset) => CoinCounts(user, t, a));
      }
    } else {
      var ec := CombinatorOf(t.multiTraitCondition);
      var src := EthSource(t);
      forall k | 0 <= k < |w.identities|
        ensures Holds(q.body, w, w.identities[k].value) ==
          (CountWhere(w.ethNfts, (a: Asset) => EthCounts(w.identities[k].value, t, a)) >= t.minAmountHeld)
      {
        var it := w.identities[k].value;
        if |TraitsOf(t)| > 0 {
          var f := TraitCond(TraitsOf(t), ec);
          forall j | 0 <= j < |w.ethNfts|
            ensures CondHolds(f, w.ethNfts[j]) == TraitsMet(t, ec, w.ethNfts[j])
          {
            TraitCondMeaning(t, ec, w.ethNfts[j]);
          }
          CountWhereAgree(w.ethNfts,
            (a: Asset) => Fetches(src, it, a) && CondHolds(f, a),
            (a: Asset) => EthCounts(it, t, a));
        } else {
          CountWhereAgree(w.ethNfts,
            (a: Asset) => Fetches(src, it, a),
            (a: Asset) => EthCounts(it, t, a));
        }
      }
    }
  }

  /** As written, a Vatom-NFT rule is met when ANY of its usable traits matches,
      whatever its own `multiTraitCondition` says; Ethereum and coin rules are unaffected. */
  lemma ConstructQueryMeaning(user: string, t: Token, w: World)
    ensures Holds(ConstructQuery(user, t), w, "") == RuleMetWith(user, t, w, Or)
  {
    BuildQueryMeaning(user, t, None, w);
  }

  /** With the intended field, the query holds exactly when the rule is met
      under the rule's own trait combinator, on every network. */
  lemma ConstructQueryIntendedMeaning(user: string, t: Token, w: World)
    ensures Holds(ConstructQueryIntended(user, t), w, "")
         == RuleMetWith(user, t, w, CombinatorOf(t.multiTraitCondition))
  {
    BuildQueryMeaning(user, t, t.multiTraitCondition, w);
  }

  /** A Vatom coin rule counts the owner's vatoms of the rule's business when
      `businessID` is truthy and all of the owner's vatoms otherwise. */
  lemma CoinQueryMeaning(user: string, t: Token, w: World)
    requires t.network == Some("vatom") && t.kind != Some("nft")
    ensures Truthy(t.businessID) ==>
      (Holds(ConstructQuery(user, t), w, "") <==>
        CountWhere(w.vatoms, (a: Asset) => a.owner == user && Some(a.business) == t.businessID) >= t.minAmountHeld)
    ensures !Truthy(t.businessID) ==>
      (Holds(ConstructQuery(user, t), w, "") <==>
        CountWhere(w.vatoms, (a: Asset) => a.owner == user) >= t.minAmountHeld)
  {
    ConstructQueryMeaning(user, t, w);
    if Truthy(t.businessID) {
      CountWhereAgree(w.vatoms,
        (a: Asset) => CoinCounts(user, t, a),
        (a: Asset) => a.owner == user && Some(a.business) == t.businessID);
    } else {
      CountWhereAgree(w.vatoms,
        (a: Asset) => CoinCounts(user, t, a),
        (a: Asset) => a.owner == user);
    }
  }

  /** The Vatom-NFT combinator mix-up shown on one rule: two traits, "and"
      requested, and a wallet holding one vatom that has only the first trait. */
  const SampleColor := Trait("t1", "Trait 1", Some("color"), Some("red"))
  const SampleSize := Trait("t2", "Trait 2", Some("size"), Some("L"))
  const SampleRule := Token("r", "Rule", Some("vatom"), Some("nft"), None, Some("c1"), Some("o1"),
                            None, None, 1, Some([SampleColor, SampleSize]), Some("and"), None, None, None)
  const SampleVatom := Asset("u", "c1", "o1", "", "", map["color" := "red"])
  const SampleWorld := World([SampleVatom], [], [])

  /** The sample vatom counts when the traits are or-ed and not when they are and-ed. */
  lemma SampleVatomCounts()
    ensures NftCounts("u", SampleRule, Or, SampleVatom)
    ensures !NftCounts("u", SampleRule, And, SampleVatom)
  {
    assert TraitsOf(SampleRule)[0] == SampleColor;
    assert TraitMatches(SampleColor, SampleVatom);
    assert SampleColor in TraitsOf(SampleRule);
    assert SampleSize in TraitsOf(SampleRule) && Usable(SampleSize);
    assert !TraitMatches(SampleSize, SampleVatom) by {
      assert "size" !in SampleVatom.attributes;
    }
  }

  lemma CountWhereSingle(a: Asset, p: Asset -> bool)
    ensures CountWhere([a], p) == (if p(a) then 1 else 0)
  {
    assert [a][1..] == [];
  }

  /** As written the sample rule is met by the sample wallet; as intended it is not. */
  lemma VatomNftCombinatorCounterexample()
    ensures Holds(ConstructQuery("u", SampleRule), SampleWorld, "")
    ensures !Holds(ConstructQueryIntended("u", SampleRule), SampleWorld, "")
  {
    ConstructQueryMeaning("u", SampleRule, SampleWorld);
    ConstructQueryIntendedMeaning("u", SampleRule, SampleWorld);
    SampleVatomCounts();
    CountWhereSingle(SampleVatom, (x: Asset) => NftCounts("u", SampleRule, Or, x));
    CountWhereSingle(SampleVatom, (x: Asset) => NftCounts("u", SampleRule, And, x));
  }

  /** A rule whose traits all lack a key or value, combined with "and",
      is met exactly when the same rule without traits is. */
  lemma DroppedTraitsUnderAnd(user: string, t: Token, w: World)
    requires forall k :: 0 <= k < |TraitsOf(t)| ==> !Usable(TraitsOf(t)[k])
    requires t.multiTraitCondition == Some("and")
    ensures Holds(ConstructQueryIntended(user, t), w, "")
         == Holds(ConstructQueryIntended(user, t.(traits := None)), w, "")
  {
    var t' := t.(traits := None);
    ConstructQueryIntendedMeaning(user, t, w);
    ConstructQueryIntendedMeaning(user, t', w);
    CountWhereAgree(w.vatoms,
      (a: Asset) => NftCounts(user, t, And, a), (a: Asset) => NftCounts(user, t', And, a));
    forall k | 0 <= k < |w.identities|
      ensures CountWhere(w.ethNfts, (a: Asset) => EthCounts(w.identities[k].value, t, a))
           == CountWhere(w.ethNfts, (a: Asset) => EthCounts(w.identities[k].value, t', a))
    {
      CountWhereAgree(w.ethNfts,
        (a: Asset) => EthCounts(w.identities[k].value, t, a),
        (a: Asset) => EthCounts(w.identities[k].value, t', a));
    }
  }

  /** Under "or", a non-empty trait list whose traits all lack a key or value
      leaves nothing to match: such a rule with a positive threshold is never met. */
  lemma DroppedTraitsUnderOr(user: string, t: Token, w: World)
    requires |TraitsOf(t)| > 0 && forall k :: 0 <= k < |TraitsOf(t)| ==> !Usable(TraitsOf(t)[k])
    requires t.multiTraitCondition != Some("and") && t.minAmountHeld >= 1
    requires t.network != Some("vatom") || t.kind == Some("nft")
    ensures !Holds(ConstructQueryIntended(user, t), w, "")
  {
    ConstructQueryIntendedMeaning(user, t, w);
    CountWhereAgree(w.vatoms, (a: Asset) => NftCounts(user, t, Or, a), (a: Asset) => false);
    NoneCounted(w.vatoms);
    forall k | 0 <= k < |w.identities|
      ensures CountWhere(w.ethNfts, (a: Asset) => EthCounts(w.identities[k].value, t, a)) == 0
    {
      CountWhereAgree(w.ethNfts, (a: Asset) => EthCounts(w.identities[k].value, t, a), (a: Asset) => false);
      NoneCounted(w.ethNfts);
    }
  }

  lemma {:induction false} NoneCounted(xs: seq<Asset>)
    ensures CountWhere(xs, (a: Asset) => false) == 0
    decreases |xs|
  {
    if |xs| > 0 {
      NoneCounted(xs[1..]);
    }
  }
}

=== FILE: regiongate.dfy ===
/** The per-region gate (`TokenGate`): the rule list a region keeps with the
    access answers fetched for them, and the 100 ms tick `gateRegion` that
    checks a user once on arrival, then either lets them stay, lets an admin
    through with a notice, or moves them back out. */
module RegionGate {
  import opened Wrappers
  import opened Tokens
  import opened Dates
  import opened Geometry

  /** A region rule with the permission answer fetched when the list was set. */
  datatype RegionToken = RegionToken(properties: Token, access: bool)

  /** The component's fields: `regionCheck`, `regionAccess`, `removingUser`,
      `dateTimeBlocked`, `lastUserPosition`, `returnPosition`, `missingToken`. */
  datatype RegionState = RegionState(
    checked: bool, access: bool, removing: bool, dateBlocked: bool,
    lastPos: Option<Vec3>, returnPos: Option<Vec3>, missing: Option<RegionToken>)

  const Fresh := RegionState(false, false, false, false, None, None, None)

  /** The alert shown to an admin who is let through, or to a user who is moved out. */
  datatype Notice = BypassNotice(reason: Denial) | EntryDenied(reason: Denial)

  datatype RegionEffect = Teleport(to: Vec3) | Alert(notice: Notice)

  /** A tick that throws: `convertToDate` on a malformed date, or a denial
      message built while no rule is recorded as missing. */
  datatype Crash = MalformedDate | NoMissingToken

  datatype StepResult = StepResult(state: RegionState, effects: seq<RegionEffect>, crash: Option<Crash>)

  // ----- The rule list -----

  /** The rules whose `regionID` is this region's id, in list order. */
  function RegionTokens(tokens: seq<Token>, zoneId: string): (scope: seq<Token>)
    ensures |scope| <= |tokens|
    ensures forall k :: 0 <= k < |scope| ==> InRegionScope(scope[k], zoneId)
    decreases |tokens|
  {
    if |tokens| == 0 then []
    else if InRegionScope(tokens[0], zoneId) then [tokens[0]] + RegionTokens(tokens[1..], zoneId)
    else RegionTokens(tokens[1..], zoneId)
  }

  lemma {:induction false} RegionTokensMembers(tokens: seq<Token>, zoneId: string)
    ensures forall t :: t in RegionTokens(tokens, zoneId) <==> t in tokens && InRegionScope(t, zoneId)
    decreases |tokens|
  {
    if |tokens| > 0 {
      RegionTokensMembers(tokens[1..], zoneId);
      assert tokens == [tokens[0]] + tokens[1..];
    }
  }

  /** Pairs each rule with its answer. */
  function Zip(ts: seq<Token>, results: seq<bool>): (r: seq<RegionToken>)
    requires |ts| == |results|
    ensures |r| == |ts|
    ensures forall k :: 0 <= k < |r| ==> r[k] == RegionToken(ts[k], results[k])
  {
    seq(|ts|, k requires 0 <= k < |ts| => RegionToken(ts[k], results[k]))
  }

  /** The `set-region-tokens` handler: an event for another region changes
      nothing; otherwise the list is rebuilt from this region's rules and
      their answers (`results[k]` for the k-th rule of this region). */
  function SetRegionTokens(current: seq<RegionToken>, eventRegion: string, zoneId: string,
                           tokens: seq<Token>, results: seq<bool>): (r: seq<RegionToken>)
    requires |results| == |RegionTokens(tokens, zoneId)|
    ensures eventRegion != zoneId ==> r == current
    ensures eventRegion == zoneId ==> |r| == |results|
    ensures eventRegion == zoneId ==>
      forall k :: 0 <= k < |r| ==> r[k].access == results[k] && InRegionScope(r[k].properties, zoneId)
  {
    if eventRegion != zoneId then current
    else Zip(RegionTokens(tokens, zoneId), results)
  }

  /** The rebuilt list carries exactly this region's rules, in order, each
      with its own answer; events for other regions are ignored. */
  lemma SetRegionTokensContents(current: seq<RegionToken>, eventRegion: string, zoneId: string,
                                tokens: seq<Token>, results: seq<bool>)
    requires |results| == |RegionTokens(tokens, zoneId)|
    ensures eventRegion != zoneId ==> SetRegionTokens(current, eventRegion, zoneId, tokens, results) == current
    ensures eventRegion == zoneId ==>
      var r := SetRegionTokens(current, eventRegion, zoneId, tokens, results);
      |r| == |results| &&
      (forall k :: 0 <= k < |r| ==> r[k].access == results[k] && InRegionScope(r[k].properties, zoneId)) &&
      (forall t :: t in tokens && InRegionScope(t, zoneId) <==> exists k :: 0 <= k < |r| && r[k].properties == t)
  {
    RegionTokensMembers(tokens, zoneId);
    if eventRegion == zoneId {
      var scope := RegionTokens(tokens, zoneId);
      var r := Zip(scope, results);
      forall t | t in tokens && InRegionScope(t, zoneId)
        ensures exists k :: 0 <= k < |r| && r[k].properties == t
      {
        assert t in scope;
        var k :| 0 <= k < |scope| && scope[k] == t;
        assert r[k].properties == t;
      }
    }
  }

  /** The `set-region-settings` handler. */
  function SetRegionSettings(current: Settings, eventRegion: string, zoneId: string, settings: Settings): (r: Settings)
    ensures r == (if eventRegion == zoneId then settings else current)
  {
    if eventRegion != zoneId then current else settings
  }

  /** A `set-region-settings` broadcast: the region it is for and the settings. */
  datatype SettingsEvent = SettingsEvent(region: string, settings: Settings)

  /** The settings a region holds after a run of broadcasts, oldest first. */
  function ReplaySettings(initial: Settings, events: seq<SettingsEvent>, zoneId: string): Settings
    decreases |events|
  {
    if |events| == 0 then initial
    else
      var last := events[|events| - 1];
      SetRegionSettings(ReplaySettings(initial, events[..|events| - 1], zoneId), last.region, zoneId, last.settings)
  }

  /** `events[k]` is the last broadcast for region `zoneId`. */
  predicate LastFor(events: seq<SettingsEvent>, k: int, zoneId: string) {
    0 <= k < |events| && events[k].region == zoneId &&
    forall j :: k < j < |events| ==> events[j].region != zoneId
  }

  /** The last broadcast for this region wins, whatever came for other
      regions after it; with none for this region the settings never change. */
  lemma {:induction false} RegionSettingsLastWins(initial: Settings, events: seq<SettingsEvent>, zoneId: string)
    ensures (forall j :: 0 <= j < |events| ==> events[j].region != zoneId) ==>
      ReplaySettings(initial, events, zoneId) == initial
    ensures forall k :: LastFor(events, k, zoneId) ==> ReplaySettings(initial, events, zoneId) == events[k].settings
    decreases |events|
  {
    if |events| > 0 {
      var init := events[..|events| - 1];
      RegionSettingsLastWins(initial, init, zoneId);
      forall k | LastFor(events, k, zoneId) && k < |events| - 1
        ensures ReplaySettings(initial, events, zoneId) == events[k].settings
      {
        assert init[k] == events[k];
        assert forall j :: k < j < |init| ==> init[j] == events[j];
        assert LastFor(init, k, zoneId);
      }
      if forall j :: 0 <= j < |events| ==> events[j].region != zoneId {
        assert forall j :: 0 <= j < |init| ==> init[j] == events[j];
      }
    }
  }

  // ----- The check on arrival -----

  /** The loop of `gateRegion` over every rule (no early exit), with the
      `grantedCounter` and `denialCounter`, updating `regionAccess` and
      `missingToken`. */
  function CheckLoop(c: Combinator, ts: seq<RegionToken>, i: nat, granted: nat, denied: nat,
                     access: bool, missing: Option<RegionToken>): (bool, Option<RegionToken>)
    requires i <= |ts|
    decreases |ts| - i
  {
    if i == |ts| then (access, missing)
    else if ts[i].access then
      if c == And then
        CheckLoop(c, ts, i + 1, granted + 1, denied, if |ts| == granted + 1 then true else access, missing)
      else CheckLoop(c, ts, i + 1, granted, denied, true, missing)
    else if c == And then CheckLoop(c, ts, i + 1, granted, denied, false, Some(ts[i]))
    else if |ts| == denied + 1 then CheckLoop(c, ts, i + 1, granted, denied + 1, false, Some(ts[i]))
    else CheckLoop(c, ts, i + 1, granted, denied + 1, access, missing)
  }

  /** The reference outcome: every rule held ("and") or some rule held ("or"). */
  predicate Admitted(c: Combinator, ts: seq<RegionToken>) {
    if c == And then forall k :: 0 <= k < |ts| ==> ts[k].access
    else exists k :: 0 <= k < |ts| && ts[k].access
  }

  /** The last rule not held. */
  function LastDenied(ts: seq<RegionToken>): (k: nat)
    requires exists j :: 0 <= j < |ts| && !ts[j].access
    ensures k < |ts| && !ts[k].access && forall j :: k < j < |ts| ==> ts[j].access
    decreases |ts|
  {
    if !ts[|ts| - 1].access then |ts| - 1
    else
      var init := ts[..|ts| - 1];
      assert exists j :: 0 <= j < |init| && !init[j].access by {
        var j :| 0 <= j < |ts| && !ts[j].access;
        assert init[j] == ts[j];
      }
      var k := LastDenied(init);
      assert ts[k] == init[k];
      k
  }

  lemma {:induction false} AndHeldSuffix(ts: seq<RegionToken>, i: nat, g: nat, d: nat,
                                         access: bool, missing: Option<RegionToken>)
    requires i <= |ts| && g < i
    requires forall j :: i <= j < |ts| ==> ts[j].access
    ensures CheckLoop(And, ts, i, g, d, access, missing) == (access, missing)
    decreases |ts| - i
  {
    if i < |ts| {
      AndHeldSuffix(ts, i + 1, g + 1, d, access, missing);
    }
  }

  lemma {:induction false} AndAllHeld(ts: seq<RegionToken>, i: nat, g: nat, d: nat,
                                      access: bool, missing: Option<RegionToken>)
    requires i < |ts| && g == i
    requires forall j :: i <= j < |ts| ==> ts[j].access
    ensures CheckLoop(And, ts, i, g, d, access, missing) == (true, missing)
    decreases |ts| - i
  {
    if i + 1 < |ts| {
      AndAllHeld(ts, i + 1, g + 1, d, access, missing);
    }
  }

  lemma {:induction false} AndSomeDenied(ts: seq<RegionToken>, i: nat, g: nat, d: nat,
                                         access: bool, missing: Option<RegionToken>, k: nat)
    requires i <= k < |ts| && g <= i
    requires !ts[k].access && forall j :: k < j < |ts| ==> ts[j].access
    ensures CheckLoop(And, ts, i, g, d, access, missing) == (false, Some(ts[k]))
    decreases |ts| - i
  {
    if i < k {
      var a := if ts[i].access && |ts| == g + 1 then true else access;
      var m := if ts[i].access then missing else Some(ts[i]);
      AndSomeDenied(ts, i + 1, if ts[i].access then g + 1 else g, d, if ts[i].access then a else false, m, k);
    } else {
      AndHeldSuffix(ts, k + 1, g, d, false, Some(ts[k]));
    }
  }

  lemma {:induction false} OrAfterHeld(ts: seq<RegionToken>, i: nat, g: nat, d: nat, missing: Option<RegionToken>)
    requires i <= |ts| && d < i
    ensures CheckLoop(Or, ts, i, g, d, true, missing) == (true, missing)
    decreases |ts| - i
  {
    if i < |ts| {
      OrAfterHeld(ts, i + 1, g, if ts[i].access then d else d + 1, missing);
    }
  }

  lemma {:induction false} OrSomeHeld(ts: seq<RegionToken>, i: nat, g: nat, d: nat,
                                      access: bool, missing: Option<RegionToken>, k: nat)
    requires i <= k < |ts| && d <= i
    requires ts[k].access && forall j :: i <= j < k ==> !ts[j].access
    ensures CheckLoop(Or, ts, i, g, d, access, missing) == (true, missing)
    decreases |ts| - i
  {
    if i < k {
      OrSomeHeld(ts, i + 1, g, d + 1, access, missing, k);
    } else {
      OrAfterHeld(ts, i + 1, g, d, missing);
    }
  }

  lemma {:induction false} OrNoneHeld(ts: seq<RegionToken>, i: nat, g: nat, d: nat,
                                      access: bool, missing: Option<RegionToken>)
    requires i < |ts| && d == i
    requires forall j :: i <= j < |ts| ==> !ts[j].access
    ensures CheckLoop(Or, ts, i, g, d, access, missing) == (false, Some(ts[|ts| - 1]))
    decreases |ts| - i
  {
    if i + 1 < |ts| {
      OrNoneHeld(ts, i + 1, g, d + 1, access, missing);
    }
  }

  /** On a non-empty list the check ignores the stale flag: access is granted
      exactly when the rules are met under the combinator, and on refusal the
      rule recorded as missing is the last one not held. */
  lemma CheckLoopMeaning(c: Combinator, ts: seq<RegionToken>, access: bool, missing: Option<RegionToken>)
    requires |ts| > 0
    ensures var r := CheckLoop(c, ts, 0, 0, 0, access, missing);
      r.0 == Admitted(c, ts) &&
      (!r.0 ==> exists j :: 0 <= j < |ts| && !ts[j].access) &&
      (!r.0 ==> r.1 == Some(ts[LastDenied(ts)]))
  {
    if c == And {
      if exists j :: 0 <= j < |ts| && !ts[j].access {
        AndSomeDenied(ts, 0, 0, 0, access, missing, LastDenied(ts));
      } else {
        AndAllHeld(ts, 0, 0, 0, access, missing);
      }
    } else {
      if exists j :: 0 <= j < |ts| && ts[j].access {
        var k := FirstHeld(ts);
        OrSomeHeld(ts, 0, 0, 0, access, missing, k);
      } else {
        OrNoneHeld(ts, 0, 0, 0, access, missing);
        assert LastDenied(ts) == |ts| - 1;
      }
    }
  }

  function FirstHeld(ts: seq<RegionToken>): (k: nat)
    requires exists j :: 0 <= j < |ts| && ts[j].access
    ensures k < |ts| && ts[k].access && forall j :: 0 <= j < k ==> !ts[j].access
    decreases |ts|
  {
    if ts[0].access then 0
    else
      assert exists j :: 0 <= j < |ts[1..]| && ts[1..][j].access by {
        var j :| 0 <= j < |ts| && ts[j].access;
        assert ts[1..][j - 1] == ts[j];
      }
      1 + FirstHeld(ts[1..])
  }

  // ----- The tick -----

  /** What the denial message names: a closed window first, else the missing rule. */
  function Reason(s: RegionState): Option<Denial> {
    if s.dateBlocked then Some(DateWindow)
    else if s.missing.Some? then Some(MissingToken(s.missing.value.properties))
    else None
  }

  /** One `gateRegion` tick with the user at `pos`. `zone` is the region as
      the host reports it (`None` when it cannot be found), `isAdmin` the
      plugin's admin flag, `now` the clock and `direction` the host's
      direction-vector helper. */
  function Step(s: RegionState, tokens: seq<RegionToken>, settings: Settings, zone: Option<Zone>,
                pos: Vec3, isAdmin: bool, now: DateTime, direction: DirectionFn): (r: StepResult)
    ensures |tokens| == 0 ==> r == StepResult(s, [], None)
    ensures |r.effects| > 0 ==> UserInsideRegion(zone, pos) && s.checked && !s.access && !s.removing
    ensures isAdmin ==> forall k :: 0 <= k < |r.effects| ==> r.effects[k].Alert?
    ensures r.state.checked && !s.checked ==> UserInsideRegion(zone, pos)
    ensures r.state.access && !s.access ==>
      isAdmin || (!s.checked && Admitted(CombinatorOf(settings.multiCondition), tokens))
    ensures r.state.removing && !s.removing ==> !isAdmin && |r.effects| > 0 && r.effects[0].Teleport?
  {
    if |tokens| == 0 then StepResult(s, [], None)
    else if !UserInsideRegion(zone, pos) then
      StepResult(s.(checked := false, removing := false, dateBlocked := false, lastPos := Some(pos)), [], None)
    else if s.removing then StepResult(s, [], None)
    else if s.checked && s.access then StepResult(s, [], None)
    else if s.checked then
      if isAdmin then
        match Reason(s)
        case None => StepResult(s, [], Some(NoMissingToken))
        case Some(r) => StepResult(s.(access := true), [Alert(BypassNotice(r))], None)
      else
        var offset := if s.lastPos.Some? then direction(s.lastPos.value, pos) else None;
        var ret := if offset.Some? then Some(Plus(pos, offset.value)) else s.returnPos;
        var target := if ret.Some? then ret else s.lastPos;
        if target.Some? then
          var s1 := s.(returnPos := ret, removing := true);
          match Reason(s)
          case None => StepResult(s1, [Teleport(target.value)], Some(NoMissingToken))
          case Some(r) => StepResult(s1, [Teleport(target.value), Alert(EntryDenied(r))], None)
        else StepResult(s.(returnPos := ret), [Teleport(Nudge(zone.value, pos))], None)
    else
      CheckLoopMeaning(CombinatorOf(settings.multiCondition), tokens, s.access, s.missing);
      var (acc, miss) := CheckLoop(CombinatorOf(settings.multiCondition), tokens, 0, 0, 0, s.access, s.missing);
      var s1 := s.(access := acc, missing := miss);
      if acc && settings.restrictDate then
        match ParseWindow(settings)
        case Failure(_) => StepResult(s1, [], Some(MalformedDate))
        case Success(w) =>
          if Closed(w, now) then StepResult(s1.(access := false, dateBlocked := true, checked := true), [], None)
          else StepResult(s1.(checked := true), [], None)
      else StepResult(s1.(checked := true), [], None)
  }

  /** What every reachable state satisfies: a checked refusal always has a
      reason to show, and a user is only being moved out after a refusal. */
  predicate Consistent(s: RegionState) {
    (s.checked && !s.access ==> s.dateBlocked || s.missing.Some?) &&
    (s.removing ==> s.checked && !s.access)
  }

  /** Every tick keeps the state consistent, so the denial message never
      dereferences a missing rule that is not there. */
  lemma StepPreservesConsistent(s: RegionState, tokens: seq<RegionToken>, settings: Settings, zone: Option<Zone>,
                                pos: Vec3, isAdmin: bool, now: DateTime, direction: DirectionFn)
    requires Consistent(s)
    ensures var r := Step(s, tokens, settings, zone, pos, isAdmin, now, direction);
      Consistent(r.state) && r.crash != Some(NoMissingToken)
  {
    if |tokens| > 0 && UserInsideRegion(zone, pos) && !s.checked {
      CheckLoopMeaning(CombinatorOf(settings.multiCondition), tokens, s.access, s.missing);
    }
  }

  lemma FreshIsConsistent()
    ensures Consistent(Fresh)
  {
  }

  /** Outside the region every per-visit flag is cleared and the position recorded. */
  lemma OutsideResets(s: RegionState, tokens: seq<RegionToken>, settings: Settings, zone: Option<Zone>,
                      pos: Vec3, isAdmin: bool, now: DateTime, direction: DirectionFn)
    requires |tokens| > 0 && !UserInsideRegion(zone, pos)
    ensures var r := Step(s, tokens, settings, zone, pos, isAdmin, now, direction);
      !r.state.checked && !r.state.removing && !r.state.dateBlocked &&
      r.state.lastPos == Some(pos) && r.effects == [] && r.crash.None?
  {
  }

  /** The first tick inside checks the rules once: access is the combined
      answer unless the date window refuses, and a refusal records its reason. */
  lemma ArrivalCheck(s: RegionState, tokens: seq<RegionToken>, settings: Settings, zone: Option<Zone>,
                     pos: Vec3, isAdmin: bool, now: DateTime, direction: DirectionFn)
    requires |tokens| > 0 && UserInsideRegion(zone, pos) && !s.removing && !s.checked
    requires settings.restrictDate ==> ParseWindow(settings).Success?
    ensures var r := Step(s, tokens, settings, zone, pos, isAdmin, now, direction);
      var adm := Admitted(CombinatorOf(settings.multiCondition), tokens);
      var closed := settings.restrictDate && Closed(ParseWindow(settings).value, now);
      r.crash.None? && r.effects == [] && r.state.checked &&
      r.state.access == (adm && !closed) &&
      r.state.dateBlocked == (s.dateBlocked || (adm && closed)) &&
      (!adm ==> r.state.missing == Some(tokens[LastDenied(tokens)]))
  {
    CheckLoopMeaning(CombinatorOf(settings.multiCondition), tokens, s.access, s.missing);
  }

  /** A malformed date bound makes every arrival tick throw once the rules
      admit the user, so the region is never marked checked. */
  lemma MalformedDateNeverChecks(s: RegionState, tokens: seq<RegionToken>, settings: Settings, zone: Option<Zone>,
                                 pos: Vec3, isAdmin: bool, now: DateTime, direction: DirectionFn)
    requires |tokens| > 0 && UserInsideRegion(zone, pos) && !s.removing && !s.checked
    requires settings.restrictDate && ParseWindow(settings).Failure?
    requires Admitted(CombinatorOf(settings.multiCondition), tokens)
    ensures var r := Step(s, tokens, settings, zone, pos, isAdmin, now, direction);
      r.crash == Some(MalformedDate) && !r.state.checked && r.effects == []
  {
    CheckLoopMeaning(CombinatorOf(settings.multiCondition), tokens, s.access, s.missing);
  }

  /** An admin who was refused is told why and let in, and never moved. */
  lemma AdminBypass(s: RegionState, tokens: seq<RegionToken>, settings: Settings, zone: Option<Zone>,
                    pos: Vec3, now: DateTime, direction: DirectionFn)
    requires Consistent(s) && |tokens| > 0 && UserInsideRegion(zone, pos)
    requires s.checked && !s.access && !s.removing
    ensures var r := Step(s, tokens, settings, zone, pos, true, now, direction);
      r.state == s.(access := true) && r.crash.None? &&
      r.effects == [Alert(BypassNotice(Reason(s).value))]
  {
  }

  /** A refused user is moved out once: to the point just past where they
      crossed in when the host gives a direction, else to the point recorded
      earlier, else to where they were last seen outside; the notice names the
      reason, and the state is now "removing". */
  lemma RefusedUserIsMovedOut(s: RegionState, tokens: seq<RegionToken>, settings: Settings, zone: Option<Zone>,
                              pos: Vec3, now: DateTime, direction: DirectionFn)
    requires Consistent(s) && |tokens| > 0 && UserInsideRegion(zone, pos)
    requires s.checked && !s.access && !s.removing && s.lastPos.Some?
    ensures var r := Step(s, tokens, settings, zone, pos, false, now, direction);
      var off := direction(s.lastPos.value, pos);
      var target := if off.Some? then Plus(pos, off.value)
                    else if s.returnPos.Some? then s.returnPos.value else s.lastPos.value;
      r.state.removing && r.crash.None? &&
      r.effects == [Teleport(target), Alert(EntryDenied(Reason(s).value))]
  {
  }

  /** With no position ever recorded, a refused user is pushed one step along
      the zone's shorter axis on every tick, without the "removing" latch. */
  lemma UnknownPositionNudges(s: RegionState, tokens: seq<RegionToken>, settings: Settings, zone: Option<Zone>,
                              pos: Vec3, now: DateTime, direction: DirectionFn)
    requires |tokens| > 0 && UserInsideRegion(zone, pos)
    requires s.checked && !s.access && !s.removing && s.lastPos.None? && s.returnPos.None?
    ensures var r := Step(s, tokens, settings, zone, pos, false, now, direction);
      r.state == s && r.effects == [Teleport(Nudge(zone.value, pos))]
  {
  }

  /** No teleport storm: once a user is being moved out, further ticks inside
      the region do nothing until a tick sees them outside. */
  lemma NoTeleportStorm(s: RegionState, tokens: seq<RegionToken>, settings: Settings, zone: Option<Zone>,
                        pos: Vec3, isAdmin: bool, now: DateTime, direction: DirectionFn,
                        tokens2: seq<RegionToken>, settings2: Settings, pos2: Vec3, isAdmin2: bool, now2: DateTime)
    requires Consistent(s) && |tokens| > 0 && UserInsideRegion(zone, pos)
    requires s.checked && !s.access && !s.removing && !isAdmin && s.lastPos.Some?
    requires UserInsideRegion(zone, pos2)
    ensures var r := Step(s, tokens, settings, zone, pos, isAdmin, now, direction);
      var r2 := Step(r.state, tokens2, settings2, zone, pos2, isAdmin2, now2, direction);
      r2.state == r.state && r2.effects == [] && r2.crash.None?
  {
  }

  /** A user who was admitted is left alone for the rest of the visit. */
  lemma AdmittedStaysAdmitted(s: RegionState, tokens: seq<RegionToken>, settings: Settings, zone: Option<Zone>,
                              pos: Vec3, isAdmin: bool, now: DateTime, direction: DirectionFn)
    requires s.checked && s.access && UserInsideRegion(zone, pos)
    ensures var r := Step(s, tokens, settings, zone, pos, isAdmin, now, direction);
      r.state == s && r.effects == [] && r.crash.None?
  {
  }
}

=== FILE: spacegate.dfy ===
/** The whole-space gate (`gateSpace`, `onSpaceEnter`, `kickUser`,
    `onUnload`): per-rule permission results combined under And/Or with an
    early return, the active-time window, a hard refusal at entry, and a
    one-shot eviction timer while inside. The timer is the `eviction` field
    of the state; starting, cancelling and firing it are state transitions. */
module SpaceGate {
  import opened Wrappers
  import opened Tokens
  import opened Dates

  /** `isAdmin`, whether the 15-second re-check interval is set, and the
      pending removal timer with the reason it will show. */
  datatype SpaceState = SpaceState(isAdmin: bool, recheck: bool, eviction: Option<Denial>)

  const Fresh := SpaceState(false, false, None)

  /** Timer operations, in the order they happen. Starting the timer also
      shows the "Leaving Space in 60 seconds" notice. */
  datatype SpaceEffect = StartEviction(reason: Denial) | CancelEviction | StopRecheck

  /** How a call ended: access granted (early return), the rules ran out
      without a grant, entry refused (the thrown denial), a date setting that
      made `convertToDate` throw, a TypeError while building the denial
      message of a rule stored without a trait list, the admin early return,
      or no space rules. */
  datatype Verdict = Granted | NotGranted | Refused(reason: Denial) | DateCrash | TraitsCrash | AdminExempt | Ungated

  /** The call ended by throwing; on entry, any throw keeps the user out. */
  predicate Threw(v: Verdict) {
    v.Refused? || v.DateCrash? || v.TraitsCrash?
  }

  /** `AsWritten` follows the source. `Corrected` makes the two changes the
      source evidently intends: a positive result outside the date window
      stops the pass instead of going on to the grant, and the denial message
      reads a missing trait list as an empty one (`token?.traits?.length`, as
      the region gate does at src/index.js:737). */
  datatype Policy = AsWritten | Corrected

  /** Building the denial message for `t` throws: `token?.traits.length`
      reads `length` of `undefined` when the rule has no trait list. */
  predicate Crashes(policy: Policy, t: Token) {
    policy == AsWritten && t.traits.None?
  }

  datatype SpaceOutcome = SpaceOutcome(state: SpaceState, effects: seq<SpaceEffect>, verdict: Verdict)

  /** The space-scope rules, in list order. */
  function SpaceTokens(tokens: seq<Token>): (scope: seq<Token>)
    ensures |scope| <= |tokens|
    ensures forall k :: 0 <= k < |scope| ==> InSpaceScope(scope[k])
    decreases |tokens|
  {
    if |tokens| == 0 then []
    else if InSpaceScope(tokens[0]) then [tokens[0]] + SpaceTokens(tokens[1..])
    else SpaceTokens(tokens[1..])
  }

  /** The space scope holds exactly the rules without a region. */
  lemma {:induction false} SpaceTokensMembers(tokens: seq<Token>)
    ensures forall t :: t in SpaceTokens(tokens) <==> t in tokens && InSpaceScope(t)
    decreases |tokens|
  {
    if |tokens| > 0 {
      SpaceTokensMembers(tokens[1..]);
      assert tokens == [tokens[0]] + tokens[1..];
    }
  }

  /** What stays fixed during one pass over the rules. */
  datatype Context = Context(
    policy: Policy, inside: bool, cond: Combinator,
    restrict: bool, window: Result<Window, DateError>, now: DateTime)

  /** The window refuses now (only meaningful once it parsed). */
  predicate Blocked(cx: Context) {
    cx.restrict && cx.window.Success? && Closed(cx.window.value, cx.now)
  }

  /** The window is not enforced, or it parsed and lets `now` through. */
  predicate WindowOpen(cx: Context) {
    !cx.restrict || (cx.window.Success? && !Closed(cx.window.value, cx.now))
  }

  /** How a pass at entry ends at a held rule when the date check stops it,
      or `Granted` when the window lets it through. */
  function HeldAt(cx: Context): Verdict {
    if cx.restrict && cx.window.Failure? then DateCrash
    else if Blocked(cx) then Refused(DateWindow)
    else Granted
  }

  /** `if(!this.missingTokenTimer) { alert; this.missingTokenTimer = setTimeout(...) }` */
  function Schedule(ev: Option<Denial>, fx: seq<SpaceEffect>, reason: Denial): (Option<Denial>, seq<SpaceEffect>) {
    if ev.None? then (Some(reason), fx + [StartEviction(reason)]) else (ev, fx)
  }

  /** The grant branch: clear a pending timer, then return. */
  function Grant(ev: Option<Denial>, fx: seq<SpaceEffect>): SpaceOutcome {
    SpaceOutcome(SpaceState(false, false, None), if ev.Some? then fx + [CancelEviction] else fx, Granted)
  }

  /** The loop over the space rules from position `i`, with the counters
      `granted` (And) and `denied` (Or), the timer `ev` and the effects so far.
      Only the `eviction`, `effects` and `verdict` of the result are meaningful. */
  function Loop(cx: Context, scope: seq<Token>, results: seq<bool>, i: nat,
                granted: nat, denied: nat, ev: Option<Denial>, fx: seq<SpaceEffect>): (r: SpaceOutcome)
    requires |results| == |scope| && i <= |scope|
    ensures r.verdict == Granted ==> r.state.eviction.None? && exists j :: i <= j < |scope| && results[j]
    ensures r.verdict == Granted && !cx.inside ==> WindowOpen(cx)
    ensures cx.restrict && cx.window.Failure? ==> r.verdict != Granted
    ensures cx.policy == Corrected && Blocked(cx) ==> r.verdict != Granted
    ensures r.verdict.Refused? ==> !cx.inside
    ensures r.verdict == TraitsCrash ==> exists j :: i <= j < |scope| && !results[j] && Crashes(cx.policy, scope[j])
    ensures !r.verdict.AdminExempt? && !r.verdict.Ungated?
    decreases |scope| - i
  {
    if i == |scope| then SpaceOutcome(SpaceState(false, false, ev), fx, NotGranted)
    else if results[i] then
      if cx.restrict && cx.window.Failure? then SpaceOutcome(SpaceState(false, false, ev), fx, DateCrash)
      else if Blocked(cx) && !cx.inside then SpaceOutcome(SpaceState(false, false, ev), fx, Refused(DateWindow))
      else
        var (ev1, fx1) := if Blocked(cx) then Schedule(ev, fx, DateWindow) else (ev, fx);
        if Blocked(cx) && cx.policy == Corrected then SpaceOutcome(SpaceState(false, false, ev1), fx1, NotGranted)
        else if cx.cond == And then
          if granted + 1 == |scope| then Grant(ev1, fx1)
          else Loop(cx, scope, results, i + 1, granted + 1, denied, ev1, fx1)
        else Grant(ev1, fx1)
    else if Crashes(cx.policy, scope[i]) then SpaceOutcome(SpaceState(false, false, ev), fx, TraitsCrash)
    else if cx.cond == And then
      if !cx.inside then SpaceOutcome(SpaceState(false, false, ev), fx, Refused(MissingToken(scope[i])))
      else
        var (ev1, fx1) := Schedule(ev, fx, MissingToken(scope[i]));
        Loop(cx, scope, results, i + 1, granted, denied, ev1, fx1)
    else if denied + 1 == |scope| then
      if !cx.inside then SpaceOutcome(SpaceState(false, false, ev), fx, Refused(MissingToken(scope[i])))
      else
        var (ev1, fx1) := Schedule(ev, fx, MissingToken(scope[i]));
        Loop(cx, scope, results, i + 1, granted, denied + 1, ev1, fx1)
    else Loop(cx, scope, results, i + 1, granted, denied + 1, ev, fx)
  }

  /** One call of `gateSpace(inside)`. `isAdmin` is the freshly queried admin
      status and `results[k]` the permission service's answer for the k-th
      space rule. */
  function GateSpaceWith(policy: Policy, s: SpaceState, inside: bool, isAdmin: bool,
                         tokens: seq<Token>, settings: Settings, results: seq<bool>, now: DateTime): (r: SpaceOutcome)
    requires |results| == |SpaceTokens(tokens)|
    ensures r.state.isAdmin == isAdmin
    ensures r.verdict == AdminExempt <==> isAdmin && inside
    ensures r.verdict == Ungated <==> !(isAdmin && inside) && |results| == 0
    ensures r.verdict == Granted ==> r.state.eviction.None? && exists j :: 0 <= j < |results| && results[j]
    ensures r.verdict == Granted && !inside ==> DateOk(settings, now)
    ensures settings.restrictDate && ParseWindow(settings).Failure? ==> r.verdict != Granted
    ensures r.verdict.Refused? ==> !inside
    ensures r.verdict == TraitsCrash ==>
      exists j :: 0 <= j < |results| && !results[j] && Crashes(policy, SpaceTokens(tokens)[j])
  {
    if isAdmin && inside then
      SpaceOutcome(SpaceState(isAdmin, false, None), ClearAll(s), AdminExempt)
    else
      var scope := SpaceTokens(tokens);
      if |scope| == 0 then SpaceOutcome(s.(isAdmin := isAdmin), [], Ungated)
      else
        var cx := Context(policy, inside, CombinatorOf(settings.multiCondition),
                          settings.restrictDate, ParseWindow(settings), now);
        var r := Loop(cx, scope, results, 0, 0, 0, s.eviction, []);
        SpaceOutcome(s.(isAdmin := isAdmin, eviction := r.state.eviction), r.effects, r.verdict)
  }

  /** `gateSpace` as written: a crash needs a rule without a trait list
      that the user does not hold. */
  function GateSpace(s: SpaceState, inside: bool, isAdmin: bool, tokens: seq<Token>,
                     settings: Settings, results: seq<bool>, now: DateTime): (r: SpaceOutcome)
    requires |results| == |SpaceTokens(tokens)|
    ensures r.verdict == TraitsCrash ==>
      exists j :: 0 <= j < |results| && !results[j] && SpaceTokens(tokens)[j].traits.None?
  {
    GateSpaceWith(AsWritten, s, inside, isAdmin, tokens, settings, results, now)
  }

  /** `gateSpace` corrected: no rule makes it crash, and a closed window
      never grants, inside the space or at entry. */
  function GateSpaceIntended(s: SpaceState, inside: bool, isAdmin: bool, tokens: seq<Token>,
                             settings: Settings, results: seq<bool>, now: DateTime): (r: SpaceOutcome)
    requires |results| == |SpaceTokens(tokens)|
    ensures r.verdict != TraitsCrash
    ensures WindowBlocks(settings, now) ==> r.verdict != Granted
  {
    GateSpaceWith(Corrected, s, inside, isAdmin, tokens, settings, results, now)
  }

  /** `onSpaceEnter`: the entry check; unless it threw, a non-admin gets the
      re-check interval. Entry always ends decided. */
  function Enter(policy: Policy, s: SpaceState, isAdmin: bool, tokens: seq<Token>,
                 settings: Settings, results: seq<bool>, now: DateTime): (r: SpaceOutcome)
    requires |results| == |SpaceTokens(tokens)|
    ensures r.verdict != NotGranted
    ensures !isAdmin && !Threw(r.verdict) ==> r.state.recheck
    ensures Threw(r.verdict) ==> r.state.recheck == s.recheck
  {
    EntryIsDecisive(policy, s, isAdmin, tokens, settings, results, now);
    var o := GateSpaceWith(policy, s, false, isAdmin, tokens, settings, results, now);
    if Threw(o.verdict) || isAdmin then o
    else o.(state := o.state.(recheck := true))
  }

  /** The timer firing (`kickUser`): the user is shown the shutdown screen
      with the pending reason and the re-check interval stops. Nothing
      happens when no timer is pending. */
  function FireEviction(s: SpaceState): (r: (Option<Denial>, SpaceState))
    ensures r.0 == s.eviction && r.1.eviction.None?
    ensures r.0.Some? ==> !r.1.recheck && r.1.isAdmin == s.isAdmin
    ensures r.0.None? ==> r.1 == s
  {
    if s.eviction.Some? then (s.eviction, s.(recheck := false, eviction := None)) else (None, s)
  }

  /** `onUnload`: every timer the plugin owns is cleared, by a well-formed
      sequence of timer operations, so no removal can fire afterwards. */
  function Unload(s: SpaceState): (r: (SpaceState, seq<SpaceEffect>))
    ensures r.0.eviction.None? && !r.0.recheck
    ensures Replay(s.eviction.Some?, r.1) == Some(false)
    ensures FireEviction(r.0).0.None?
  {
    ClearAllDiscipline(s);
    (s.(recheck := false, eviction := None), ClearAll(s))
  }

  /** Clearing the re-check interval and the removal timer, when set. */
  function ClearAll(s: SpaceState): seq<SpaceEffect> {
    (if s.recheck then [StopRecheck] else []) + (if s.eviction.Some? then [CancelEviction] else [])
  }

  /** Clearing everything is a well-formed sequence of timer operations that
      leaves nothing pending. */
  lemma ClearAllDiscipline(s: SpaceState)
    ensures Replay(s.eviction.Some?, ClearAll(s)) == Some(false)
  {
    var fx := ClearAll(s);
    if s.recheck && s.eviction.Some? {
      assert fx == [StopRecheck, CancelEviction];
      assert fx[1..] == [CancelEviction];
      assert Replay(true, fx[1..]) == Replay(false, []);
    } else if s.recheck {
      assert fx == [StopRecheck];
    } else if s.eviction.Some? {
      assert fx == [CancelEviction];
    } else {
      assert fx == [];
    }
  }

  // ----- Timer discipline -----

  /** Replays timer operations from `pending`: a start while a timer is
      pending (which would leak the old one) or a cancel with none pending
      is a violation (`None`); otherwise the final pending flag. */
  function Replay(pending: bool, fx: seq<SpaceEffect>): Option<bool>
    decreases |fx|
  {
    if |fx| == 0 then Some(pending)
    else match fx[0]
      case StartEviction(_) => if pending then None else Replay(true, fx[1..])
      case CancelEviction => if pending then Replay(false, fx[1..]) else None
      case StopRecheck => Replay(pending, fx[1..])
  }

  lemma {:induction false} ReplayAppend(p: bool, a: seq<SpaceEffect>, e: SpaceEffect)
    ensures Replay(p, a + [e]) == (match Replay(p, a) case None => None case Some(q) => Replay(q, [e]))
    decreases |a|
  {
    if |a| == 0 {
      assert a + [e] == [e];
    } else {
      assert (a + [e])[0] == a[0];
      assert (a + [e])[1..] == a[1..] + [e];
      match a[0]
      case StartEviction(_) => if !p { ReplayAppend(true, a[1..], e); }
      case CancelEviction => if p { ReplayAppend(false, a[1..], e); }
      case StopRecheck => ReplayAppend(p, a[1..], e);
    }
  }

  lemma ScheduleDiscipline(p: bool, ev: Option<Denial>, fx: seq<SpaceEffect>, reason: Denial)
    requires Replay(p, fx) == Some(ev.Some?)
    ensures Replay(p, Schedule(ev, fx, reason).1) == Some(Schedule(ev, fx, reason).0.Some?)
  {
    if ev.None? {
      ReplayAppend(p, fx, StartEviction(reason));
    }
  }

  lemma GrantDiscipline(p: bool, ev: Option<Denial>, fx: seq<SpaceEffect>)
    requires Replay(p, fx) == Some(ev.Some?)
    ensures Replay(p, Grant(ev, fx).effects) == Some(false)
  {
    if ev.Some? {
      ReplayAppend(p, fx, CancelEviction);
    }
  }

  lemma {:induction false} LoopDiscipline(cx: Context, scope: seq<Token>, results: seq<bool>, i: nat,
                                          g: nat, d: nat, ev: Option<Denial>, fx: seq<SpaceEffect>, p: bool)
    requires |results| == |scope| && i <= |scope|
    requires Replay(p, fx) == Some(ev.Some?)
    ensures Replay(p, Loop(cx, scope, results, i, g, d, ev, fx).effects)
         == Some(Loop(cx, scope, results, i, g, d, ev, fx).state.eviction.Some?)
    decreases |scope| - i
  {
    if i < |scope| {
      if results[i] {
        if !(cx.restrict && cx.window.Failure?) && !(Blocked(cx) && !cx.inside) {
          var (ev1, fx1) := if Blocked(cx) then Schedule(ev, fx, DateWindow) else (ev, fx);
          if Blocked(cx) { ScheduleDiscipline(p, ev, fx, DateWindow); }
          if !(Blocked(cx) && cx.policy == Corrected) {
            if cx.cond == And && g + 1 != |scope| {
              LoopDiscipline(cx, scope, results, i + 1, g + 1, d, ev1, fx1, p);
            } else {
              GrantDiscipline(p, ev1, fx1);
            }
          }
        }
      } else if Crashes(cx.policy, scope[i]) {
      } else if cx.inside {
        var (ev1, fx1) := Schedule(ev, fx, MissingToken(scope[i]));
        ScheduleDiscipline(p, ev, fx, MissingToken(scope[i]));
        if cx.cond == And {
          LoopDiscipline(cx, scope, results, i + 1, g, d, ev1, fx1, p);
        } else if d + 1 == |scope| {
          LoopDiscipline(cx, scope, results, i + 1, g, d + 1, ev1, fx1, p);
        } else {
          LoopDiscipline(cx, scope, results, i + 1, g, d + 1, ev, fx, p);
        }
      } else if cx.cond == Or && d + 1 != |scope| {
        LoopDiscipline(cx, scope, results, i + 1, g, d + 1, ev, fx, p);
      }
    }
  }

  /** No call ever starts a timer while one is pending or cancels one that is
      not, and the state's timer is exactly what the effects leave pending.
      So at most one eviction is ever pending, and none is leaked. */
  lemma GateSpaceTimerDiscipline(policy: Policy, s: SpaceState, inside: bool, isAdmin: bool,
                                 tokens: seq<Token>, settings: Settings, results: seq<bool>, now: DateTime)
    requires |results| == |SpaceTokens(tokens)|
    ensures var o := GateSpaceWith(policy, s, inside, isAdmin, tokens, settings, results, now);
      Replay(s.eviction.Some?, o.effects) == Some(o.state.eviction.Some?)
  {
    if isAdmin && inside {
      ClearAllDiscipline(s);
    } else if |SpaceTokens(tokens)| > 0 {
      var cx := Context(policy, inside, CombinatorOf(settings.multiCondition),
                        settings.restrictDate, ParseWindow(settings), now);
      LoopDiscipline(cx, SpaceTokens(tokens), results, 0, 0, 0, s.eviction, [], s.eviction.Some?);
    }
  }

  // ----- Grants, admins, and rules without a space scope -----

  /** A grant leaves no removal pending; an admin inside the space has both the
      re-check interval and any pending removal cleared. */
  lemma GrantAndAdminClearTimer(policy: Policy, s: SpaceState, inside: bool, isAdmin: bool,
                                tokens: seq<Token>, settings: Settings, results: seq<bool>, now: DateTime)
    requires |results| == |SpaceTokens(tokens)|
    ensures var o := GateSpaceWith(policy, s, inside, isAdmin, tokens, settings, results, now);
      (o.verdict == Granted ==> o.state.eviction.None?) &&
      (isAdmin && inside ==> o.state.eviction.None? && !o.state.recheck && o.verdict == AdminExempt)
  {
  }

  /** With every rule tied to a region there is nothing to check: no refusal,
      no timer started, and the pending timer kept (or, for an admin inside,
      cleared). */
  lemma NoSpaceRulesNoAction(policy: Policy, s: SpaceState, inside: bool, isAdmin: bool,
                             tokens: seq<Token>, settings: Settings, results: seq<bool>, now: DateTime)
    requires forall k :: 0 <= k < |tokens| ==> !InSpaceScope(tokens[k])
    requires |results| == |SpaceTokens(tokens)|
    ensures var o := GateSpaceWith(policy, s, inside, isAdmin, tokens, settings, results, now);
      !o.verdict.Refused? &&
      (forall e :: e in o.effects ==> !e.StartEviction?) &&
      o.state.eviction == (if isAdmin && inside then None else s.eviction)
  {
    NoSpaceTokens(tokens);
  }

  lemma {:induction false} NoSpaceTokens(tokens: seq<Token>)
    requires forall k :: 0 <= k < |tokens| ==> !InSpaceScope(tokens[k])
    ensures SpaceTokens(tokens) == []
    decreases |tokens|
  {
    if |tokens| > 0 {
      NoSpaceTokens(tokens[1..]);
    }
  }

  // ----- And / Or combination -----

  /** The date window lets `now` through (or is not enforced). */
  predicate DateOk(settings: Settings, now: DateTime) {
    !settings.restrictDate || (ParseWindow(settings).Success? && !Closed(ParseWindow(settings).value, now))
  }

  /** The window is enforced, parsed, and refuses `now`. */
  predicate WindowBlocks(settings: Settings, now: DateTime) {
    settings.restrictDate && ParseWindow(settings).Success? && Closed(ParseWindow(settings).value, now)
  }

  /** How the entry check ends at a held rule that the date check stops:
      `convertToDate` threw, or the window refused; `Granted` when the
      window lets the user through. */
  function WindowVerdict(settings: Settings, now: DateTime): Verdict {
    if settings.restrictDate && ParseWindow(settings).Failure? then DateCrash
    else if WindowBlocks(settings, now) then Refused(DateWindow)
    else Granted
  }

  /** How the entry check ends at a rule the user does not hold: the denial
      naming it, or the TypeError of a rule without a trait list. */
  function Missed(policy: Policy, t: Token): Verdict {
    if Crashes(policy, t) then TraitsCrash else Refused(MissingToken(t))
  }

  /** Under "and", held rules before `k` with the window open only count up. */
  lemma {:induction false} AndHeldPrefix(cx: Context, scope: seq<Token>, results: seq<bool>, i: nat,
                                         d: nat, ev: Option<Denial>, fx: seq<SpaceEffect>, k: nat)
    requires |results| == |scope| && i <= k < |scope|
    requires cx.cond == And && WindowOpen(cx)
    requires forall j :: i <= j < k ==> results[j]
    ensures Loop(cx, scope, results, i, i, d, ev, fx) == Loop(cx, scope, results, k, k, d, ev, fx)
    decreases k - i
  {
    if i < k {
      AndHeldPrefix(cx, scope, results, i + 1, d, ev, fx, k);
    }
  }

  lemma AndFirstMissing(cx: Context, scope: seq<Token>, results: seq<bool>,
                        d: nat, ev: Option<Denial>, fx: seq<SpaceEffect>, k: nat)
    requires |results| == |scope| && k < |scope|
    requires cx.cond == And && !cx.inside && WindowOpen(cx)
    requires !results[k] && forall j :: 0 <= j < k ==> results[j]
    ensures Loop(cx, scope, results, 0, 0, d, ev, fx)
         == SpaceOutcome(SpaceState(false, false, ev), fx, Missed(cx.policy, scope[k]))
  {
    AndHeldPrefix(cx, scope, results, 0, d, ev, fx, k);
  }

  lemma {:induction false} AndAllHeld(cx: Context, scope: seq<Token>, results: seq<bool>, i: nat,
                                      g: nat, d: nat, ev: Option<Denial>, fx: seq<SpaceEffect>)
    requires |results| == |scope| && i < |scope|
    requires cx.cond == And && g == i && WindowOpen(cx)
    requires forall j :: i <= j < |scope| ==> results[j]
    ensures Loop(cx, scope, results, i, g, d, ev, fx) == Grant(ev, fx)
    decreases |scope| - i
  {
    if i + 1 < |scope| {
      AndAllHeld(cx, scope, results, i + 1, g + 1, d, ev, fx);
    }
  }

  /** Under "and" at entry. With the window open, entry is granted exactly
      when every space rule is held, and otherwise ends at the first rule not
      held: refused naming it, or the TypeError when it has no trait list.
      With the window closed or unreadable, the first rule decides: held, it
      meets the date check; not held, it is the missing one. */
  lemma AndEntry(policy: Policy, s: SpaceState, isAdmin: bool, tokens: seq<Token>,
                 settings: Settings, results: seq<bool>, now: DateTime)
    requires |results| == |SpaceTokens(tokens)| && |results| > 0
    requires CombinatorOf(settings.multiCondition) == And
    ensures var o := GateSpaceWith(policy, s, false, isAdmin, tokens, settings, results, now);
      (o.verdict == Granted <==> DateOk(settings, now) && forall j :: 0 <= j < |results| ==> results[j]) &&
      ((forall j :: 0 <= j < |results| ==> results[j]) ==> o.verdict == WindowVerdict(settings, now)) &&
      (forall k :: 0 <= k < |results| && !results[k] && (forall j :: 0 <= j < k ==> results[j]) ==>
         o.verdict == (if k > 0 && !DateOk(settings, now) then WindowVerdict(settings, now)
                       else Missed(policy, SpaceTokens(tokens)[k])) &&
         o.effects == [] && o.state.eviction == s.eviction)
  {
    var scope := SpaceTokens(tokens);
    var cx := Context(policy, false, And, settings.restrictDate, ParseWindow(settings), now);
    if !DateOk(settings, now) {
      assert HeldAt(cx) == WindowVerdict(settings, now);
      assert Loop(cx, scope, results, 0, 0, 0, s.eviction, [])
          == SpaceOutcome(SpaceState(false, false, s.eviction), [],
                          if results[0] then WindowVerdict(settings, now) else Missed(policy, scope[0]));
    } else {
      if forall j :: 0 <= j < |results| ==> results[j] {
        AndAllHeld(cx, scope, results, 0, 0, 0, s.eviction, []);
      } else {
        AndFirstMissing(cx, scope, results, 0, s.eviction, [], FirstFalse(results));
      }
      forall k | 0 <= k < |results| && !results[k] && (forall j :: 0 <= j < k ==> results[j])
        ensures Loop(cx, scope, results, 0, 0, 0, s.eviction, [])
             == SpaceOutcome(SpaceState(false, false, s.eviction), [], Missed(policy, scope[k]))
      {
        AndFirstMissing(cx, scope, results, 0, s.eviction, [], k);
      }
    }
  }

  /** The position of the first `false`, when there is one. */
  function FirstFalse(bs: seq<bool>): (k: nat)
    requires exists j :: 0 <= j < |bs| && !bs[j]
    ensures k < |bs| && !bs[k] && forall j :: 0 <= j < k ==> bs[j]
    decreases |bs|
  {
    if !bs[0] then 0
    else
      assert exists j :: 0 <= j < |bs[1..]| && !bs[1..][j] by {
        var j :| 0 <= j < |bs| && !bs[j];
        assert bs[1..][j - 1] == bs[j];
      }
      1 + FirstFalse(bs[1..])
  }

  /** The position of the first `true`, when there is one. */
  function FirstTrue(bs: seq<bool>): (k: nat)
    requires exists j :: 0 <= j < |bs| && bs[j]
    ensures k < |bs| && bs[k] && forall j :: 0 <= j < k ==> !bs[j]
    decreases |bs|
  {
    if bs[0] then 0
    else
      assert exists j :: 0 <= j < |bs[1..]| && bs[1..][j] by {
        var j :| 0 <= j < |bs| && bs[j];
        assert bs[1..][j - 1] == bs[j];
      }
      1 + FirstTrue(bs[1..])
  }

  /** Under "or" at entry, rules neither held nor crashing only count up, and
      the first rule that is held or crashes decides. */
  lemma {:induction false} OrEntryAt(cx: Context, scope: seq<Token>, results: seq<bool>, i: nat,
                                     g: nat, ev: Option<Denial>, fx: seq<SpaceEffect>, k: nat)
    requires |results| == |scope| && i <= k < |scope|
    requires cx.cond == Or && !cx.inside
    requires results[k] || Crashes(cx.policy, scope[k])
    requires forall j :: i <= j < k ==> !results[j] && !Crashes(cx.policy, scope[j])
    ensures Loop(cx, scope, results, i, g, i, ev, fx).verdict == (if results[k] then HeldAt(cx) else TraitsCrash)
    decreases k - i
  {
    if i < k {
      OrEntryAt(cx, scope, results, i + 1, g, ev, fx, k);
    }
  }

  lemma {:induction false} OrNoneHeld(cx: Context, scope: seq<Token>, results: seq<bool>, i: nat,
                                      g: nat, d: nat, ev: Option<Denial>, fx: seq<SpaceEffect>)
    requires |results| == |scope| && i < |scope|
    requires cx.cond == Or && d == i && !cx.inside
    requires forall j :: i <= j < |scope| ==> !results[j] && !Crashes(cx.policy, scope[j])
    ensures Loop(cx, scope, results, i, g, d, ev, fx)
         == SpaceOutcome(SpaceState(false, false, ev), fx, Refused(MissingToken(scope[|scope| - 1])))
    decreases |scope| - i
  {
    if i + 1 < |scope| {
      OrNoneHeld(cx, scope, results, i + 1, g, d + 1, ev, fx);
    }
  }

  /** Under "or" at entry. Entry is granted exactly when the window is open
      and some rule is held with no rule before it lacking a trait list; the
      first rule that is held or lacks one decides (the date check, or the
      TypeError); and when every rule is neither, entry is refused naming the
      last rule. */
  lemma OrEntry(policy: Policy, s: SpaceState, isAdmin: bool, tokens: seq<Token>,
                settings: Settings, results: seq<bool>, now: DateTime)
    requires |results| == |SpaceTokens(tokens)| && |results| > 0
    requires CombinatorOf(settings.multiCondition) == Or
    ensures GateSpaceWith(policy, s, false, isAdmin, tokens, settings, results, now).verdict == Granted <==>
      DateOk(settings, now) &&
      exists j :: 0 <= j < |results| && results[j] && forall i :: 0 <= i < j ==> !Crashes(policy, SpaceTokens(tokens)[i])
    ensures var o := GateSpaceWith(policy, s, false, isAdmin, tokens, settings, results, now);
      var scope := SpaceTokens(tokens);
      forall k :: 0 <= k < |results| && (results[k] || Crashes(policy, scope[k])) &&
                  (forall j :: 0 <= j < k ==> !results[j] && !Crashes(policy, scope[j])) ==>
        o.verdict == (if results[k] then WindowVerdict(settings, now) else TraitsCrash)
    ensures var o := GateSpaceWith(policy, s, false, isAdmin, tokens, settings, results, now);
      var scope := SpaceTokens(tokens);
      (forall j :: 0 <= j < |results| ==> !results[j] && !Crashes(policy, scope[j])) ==>
         o.verdict == Refused(MissingToken(scope[|results| - 1])) && o.effects == []
  {
    var scope := SpaceTokens(tokens);
    var cx := Context(policy, false, Or, settings.restrictDate, ParseWindow(settings), now);
    assert HeldAt(cx) == WindowVerdict(settings, now);
    assert WindowOpen(cx) == DateOk(settings, now);
    OrEntryGrantIff(cx, scope, results, s.eviction);
    forall k | 0 <= k < |results| && (results[k] || Crashes(policy, scope[k])) &&
               (forall j :: 0 <= j < k ==> !results[j] && !Crashes(policy, scope[j]))
      ensures Loop(cx, scope, results, 0, 0, 0, s.eviction, []).verdict == (if results[k] then HeldAt(cx) else TraitsCrash)
    {
      OrEntryAt(cx, scope, results, 0, 0, s.eviction, [], k);
    }
    if forall j :: 0 <= j < |results| ==> !results[j] && !Crashes(policy, scope[j]) {
      OrNoneHeld(cx, scope, results, 0, 0, 0, s.eviction, []);
    }
  }

  /** Under "or" at entry, the grant happens exactly when the window is open
      and some rule is held with no rule before it lacking a trait list. */
  lemma OrEntryGrantIff(cx: Context, scope: seq<Token>, results: seq<bool>, ev: Option<Denial>)
    requires |results| == |scope| && |scope| > 0
    requires cx.cond == Or && !cx.inside
    ensures Loop(cx, scope, results, 0, 0, 0, ev, []).verdict == Granted <==>
      WindowOpen(cx) &&
      exists j :: 0 <= j < |results| && results[j] && forall i :: 0 <= i < j ==> !Crashes(cx.policy, scope[i])
  {
    var dec := seq(|results|, j requires 0 <= j < |results| => results[j] || Crashes(cx.policy, scope[j]));
    if exists j :: 0 <= j < |dec| && dec[j] {
      var k := FirstTrue(dec);
      forall j | 0 <= j < k
        ensures !results[j] && !Crashes(cx.policy, scope[j])
      {
        assert !dec[j];
      }
      OrEntryAt(cx, scope, results, 0, 0, ev, [], k);
      if WindowOpen(cx) && exists j :: 0 <= j < |results| && results[j] && forall i :: 0 <= i < j ==> !Crashes(cx.policy, scope[i]) {
        var j :| 0 <= j < |results| && results[j] && forall i :: 0 <= i < j ==> !Crashes(cx.policy, scope[i]);
        assert dec[j];
        assert results[k];
      }
    } else {
      forall j | 0 <= j < |results|
        ensures !results[j] && !Crashes(cx.policy, scope[j])
      {
        assert !dec[j];
      }
      OrNoneHeld(cx, scope, results, 0, 0, 0, ev, []);
    }
  }

  /** With the trait-list guard, a rule without traits no longer breaks the
      "or" entry check: entry is granted exactly when the window is open and
      some space rule is held. */
  lemma GuardedOrEntry(s: SpaceState, isAdmin: bool, tokens: seq<Token>,
                       settings: Settings, results: seq<bool>, now: DateTime)
    requires |results| == |SpaceTokens(tokens)| && |results| > 0
    requires CombinatorOf(settings.multiCondition) == Or
    ensures GateSpaceIntended(s, false, isAdmin, tokens, settings, results, now).verdict == Granted <==>
      DateOk(settings, now) && exists j :: 0 <= j < |results| && results[j]
  {
    OrEntry(Corrected, s, isAdmin, tokens, settings, results, now);
    if exists j :: 0 <= j < |results| && results[j] {
      var j :| 0 <= j < |results| && results[j];
      assert forall i :: 0 <= i < j ==> !Crashes(Corrected, SpaceTokens(tokens)[i]);
    }
  }

  const BareRule := Token("a", "Token 1", None, None, None, None, None, None, None, 1,
                          None, None, None, None, None)
  const ListedRule := BareRule.(id := "b", traits := Some([]))
  const OrSettings := DefaultSettings.(multiCondition := Some("or"))

  lemma BareAndListedAreSpaceRules()
    ensures SpaceTokens([BareRule, ListedRule]) == [BareRule, ListedRule]
  {
    assert [BareRule, ListedRule][1..] == [ListedRule];
    assert [ListedRule][1..] == [];
  }

  /** A rule just created in the panel (no trait list) that the user does not
      hold, then a rule the user holds, under "or": as written the entry
      check throws at the first rule, so entry is refused although the
      second rule grants it; with the guard, entry is granted. */
  lemma MissingTraitListCounterexample(now: DateTime)
    ensures |SpaceTokens([BareRule, ListedRule])| == 2
    ensures GateSpace(Fresh, false, false, [BareRule, ListedRule], OrSettings, [false, true], now).verdict == TraitsCrash
    ensures GateSpaceIntended(Fresh, false, false, [BareRule, ListedRule], OrSettings, [false, true], now).verdict == Granted
  {
    BareAndListedAreSpaceRules();
    GuardedOrEntry(Fresh, false, [BareRule, ListedRule], OrSettings, [false, true], now);
  }

  /** Under "and" inside the space, with the window open: the first rule not
      held starts the removal timer naming it (if none is pending). The pass
      then runs on and ends without a grant, or in the TypeError of a later
      rule not held that has no trait list; the timer stays pending either
      way. A first missing rule that itself lacks a trait list throws before
      anything is started. */
  lemma AndInsideSchedulesFirstMissing(policy: Policy, s: SpaceState, tokens: seq<Token>,
                                       settings: Settings, results: seq<bool>, now: DateTime, k: nat)
    requires |results| == |SpaceTokens(tokens)| && k < |results|
    requires CombinatorOf(settings.multiCondition) == And && DateOk(settings, now)
    requires !results[k] && (forall j :: 0 <= j < k ==> results[j]) && s.eviction.None?
    ensures var o := GateSpaceWith(policy, s, true, false, tokens, settings, results, now);
      var scope := SpaceTokens(tokens);
      (Crashes(policy, scope[k]) ==> o.verdict == TraitsCrash && o.effects == [] && o.state.eviction.None?) &&
      (!Crashes(policy, scope[k]) ==>
         o.state.eviction == Some(MissingToken(scope[k])) &&
         o.effects == [StartEviction(MissingToken(scope[k]))] &&
         o.verdict == (if exists j :: k < j < |scope| && !results[j] && Crashes(policy, scope[j])
                       then TraitsCrash else NotGranted))
  {
    var scope := SpaceTokens(tokens);
    var cx := Context(policy, true, And, settings.restrictDate, ParseWindow(settings), now);
    AndHeldPrefix(cx, scope, results, 0, 0, None, [], k);
    if !Crashes(policy, scope[k]) {
      var miss := MissingToken(scope[k]);
      assert [] + [StartEviction(miss)] == [StartEviction(miss)];
      AndInsideAfterMissing(cx, scope, results, k + 1, k, 0, Some(miss), [StartEviction(miss)]);
    }
  }

  /** After a miss under "and", with the timer pending, nothing more is
      started; only a later rule without a trait list can still throw. */
  lemma {:induction false} AndInsideAfterMissing(cx: Context, scope: seq<Token>, results: seq<bool>, i: nat,
                                                 g: nat, d: nat, ev: Option<Denial>, fx: seq<SpaceEffect>)
    requires |results| == |scope| && i <= |scope|
    requires cx.cond == And && cx.inside && g < i && ev.Some? && WindowOpen(cx)
    ensures Loop(cx, scope, results, i, g, d, ev, fx)
         == SpaceOutcome(SpaceState(false, false, ev), fx,
              if exists j :: i <= j < |scope| && !results[j] && Crashes(cx.policy, scope[j])
              then TraitsCrash else NotGranted)
    decreases |scope| - i
  {
    if i < |scope| {
      AndInsideAfterMissing(cx, scope, results, i + 1, if results[i] then g + 1 else g, d, ev, fx);
    }
  }

  /** Under "or" inside the space, no rule starts anything until the last
      one: a rule without a trait list throws first, and otherwise the last
      rule starts the removal naming itself. */
  lemma {:induction false} OrInsideNoneHeld(cx: Context, scope: seq<Token>, results: seq<bool>, i: nat,
                                            g: nat, ev: Option<Denial>, fx: seq<SpaceEffect>)
    requires |results| == |scope| && i < |scope|
    requires cx.cond == Or && cx.inside
    requires forall j :: i <= j < |scope| ==> !results[j]
    ensures Loop(cx, scope, results, i, g, i, ev, fx)
         == if exists j :: i <= j < |scope| && Crashes(cx.policy, scope[j])
            then SpaceOutcome(SpaceState(false, false, ev), fx, TraitsCrash)
            else SpaceOutcome(SpaceState(false, false, Schedule(ev, fx, MissingToken(scope[|scope| - 1])).0),
                              Schedule(ev, fx, MissingToken(scope[|scope| - 1])).1, NotGranted)
    decreases |scope| - i
  {
    if i + 1 < |scope| {
      OrInsideNoneHeld(cx, scope, results, i + 1, g, ev, fx);
    }
  }

  /** Under "or" inside the space with no rule held, the removal starts
      naming the last rule, unless some rule lacks a trait list, in which
      case the call throws and nothing is started. */
  lemma OrInsideSchedulesLast(policy: Policy, s: SpaceState, tokens: seq<Token>,
                              settings: Settings, results: seq<bool>, now: DateTime)
    requires |results| == |SpaceTokens(tokens)| && |results| > 0
    requires CombinatorOf(settings.multiCondition) == Or && s.eviction.None?
    requires forall j :: 0 <= j < |results| ==> !results[j]
    ensures var o := GateSpaceWith(policy, s, true, false, tokens, settings, results, now);
      var scope := SpaceTokens(tokens);
      ((exists j :: 0 <= j < |scope| && Crashes(policy, scope[j])) ==>
         o.verdict == TraitsCrash && o.effects == [] && o.state.eviction.None?) &&
      ((forall j :: 0 <= j < |scope| ==> !Crashes(policy, scope[j])) ==>
         o.verdict == NotGranted && o.state.eviction == Some(MissingToken(scope[|scope| - 1])) &&
         o.effects == [StartEviction(MissingToken(scope[|scope| - 1]))])
  {
    var scope := SpaceTokens(tokens);
    var cx := Context(policy, true, Or, settings.restrictDate, ParseWindow(settings), now);
    OrInsideNoneHeld(cx, scope, results, 0, 0, None, []);
    assert [] + [StartEviction(MissingToken(scope[|scope| - 1]))] == [StartEviction(MissingToken(scope[|scope| - 1]))];
  }

  /** Both corrections change nothing while the window does not refuse the
      user and every space rule carries a trait list. */
  lemma {:induction false} LoopPolicyFree(cx: Context, scope: seq<Token>, results: seq<bool>, i: nat,
                                          g: nat, d: nat, ev: Option<Denial>, fx: seq<SpaceEffect>)
    requires |results| == |scope| && i <= |scope| && !Blocked(cx)
    requires forall j :: i <= j < |scope| ==> scope[j].traits.Some?
    ensures Loop(cx, scope, results, i, g, d, ev, fx) == Loop(cx.(policy := Corrected), scope, results, i, g, d, ev, fx)
    decreases |scope| - i
  {
    if i < |scope| {
      if results[i] {
        LoopPolicyFree(cx, scope, results, i + 1, g + 1, d, ev, fx);
      } else if cx.cond == And {
        var (ev1, fx1) := Schedule(ev, fx, MissingToken(scope[i]));
        LoopPolicyFree(cx, scope, results, i + 1, g, d, ev1, fx1);
      } else if d + 1 == |scope| {
        var (ev1, fx1) := Schedule(ev, fx, MissingToken(scope[i]));
        LoopPolicyFree(cx, scope, results, i + 1, g, d + 1, ev1, fx1);
      } else {
        LoopPolicyFree(cx, scope, results, i + 1, g, d + 1, ev, fx);
      }
    }
  }

  lemma CorrectionsAgree(s: SpaceState, inside: bool, isAdmin: bool, tokens: seq<Token>,
                         settings: Settings, results: seq<bool>, now: DateTime)
    requires |results| == |SpaceTokens(tokens)| && !WindowBlocks(settings, now)
    requires forall t :: t in SpaceTokens(tokens) ==> t.traits.Some?
    ensures GateSpace(s, inside, isAdmin, tokens, settings, results, now)
         == GateSpaceIntended(s, inside, isAdmin, tokens, settings, results, now)
  {
    var scope := SpaceTokens(tokens);
    if !(isAdmin && inside) && |scope| > 0 {
      var cx := Context(AsWritten, inside, CombinatorOf(settings.multiCondition),
                        settings.restrictDate, ParseWindow(settings), now);
      assert forall j :: 0 <= j < |scope| ==> scope[j] in scope;
      LoopPolicyFree(cx, scope, results, 0, 0, 0, s.eviction, []);
    }
  }

  // ----- Entry is decisive -----

  lemma {:induction false} EntryLoopDecides(cx: Context, scope: seq<Token>, results: seq<bool>, i: nat,
                                            g: nat, d: nat, ev: Option<Denial>, fx: seq<SpaceEffect>)
    requires |results| == |scope| && i < |scope| && !cx.inside
    requires cx.cond == And ==> g == i
    requires cx.cond == Or ==> d == i
    ensures var o := Loop(cx, scope, results, i, g, d, ev, fx);
      o.verdict != NotGranted && (o.effects == fx || o.effects == fx + [CancelEviction])
    decreases |scope| - i
  {
    if results[i] {
      if cx.cond == And && g + 1 != |scope| && !(cx.restrict && cx.window.Failure?) && !Blocked(cx) {
        EntryLoopDecides(cx, scope, results, i + 1, g + 1, d, ev, fx);
      }
    } else if cx.cond == Or && d + 1 != |scope| {
      EntryLoopDecides(cx, scope, results, i + 1, g, d + 1, ev, fx);
    }
  }

  /** The entry check never ends undecided and never starts a removal timer:
      it grants, refuses (throws), or throws on a malformed date setting. */
  lemma EntryIsDecisive(policy: Policy, s: SpaceState, isAdmin: bool, tokens: seq<Token>,
                        settings: Settings, results: seq<bool>, now: DateTime)
    requires |results| == |SpaceTokens(tokens)|
    ensures var o := GateSpaceWith(policy, s, false, isAdmin, tokens, settings, results, now);
      o.verdict != NotGranted && (forall e :: e in o.effects ==> e == CancelEviction)
  {
    if |SpaceTokens(tokens)| > 0 {
      var cx := Context(policy, false, CombinatorOf(settings.multiCondition),
                        settings.restrictDate, ParseWindow(settings), now);
      EntryLoopDecides(cx, SpaceTokens(tokens), results, 0, 0, 0, s.eviction, []);
    }
  }

  // ----- The date window while inside -----

  lemma {:induction false} BlockedAllHeldAsWritten(cx: Context, scope: seq<Token>, results: seq<bool>, i: nat,
                                                   g: nat, d: nat, ev: Option<Denial>, fx: seq<SpaceEffect>)
    requires |results| == |scope| && i < |scope|
    requires cx.policy == AsWritten && cx.inside && Blocked(cx) && g == i
    requires forall j :: i <= j < |scope| ==> results[j]
    ensures Loop(cx, scope, results, i, g, d, ev, fx) == Grant(Schedule(ev, fx, DateWindow).0, Schedule(ev, fx, DateWindow).1)
    decreases |scope| - i
  {
    if cx.cond == And && g + 1 != |scope| {
      var (ev1, fx1) := Schedule(ev, fx, DateWindow);
      BlockedAllHeldAsWritten(cx, scope, results, i + 1, g + 1, d, ev1, fx1);
      assert Schedule(ev1, fx1, DateWindow) == (ev1, fx1);
    }
  }

  /** As written, a user inside the space whose date window has closed while
      every rule is still held gets the removal notice, but the same call goes
      on to the grant branch and cancels the timer: no removal ever happens. */
  lemma ClosedWindowNeverEvictsAsWritten(s: SpaceState, tokens: seq<Token>, settings: Settings,
                                         results: seq<bool>, now: DateTime)
    requires |results| == |SpaceTokens(tokens)| && |results| > 0
    requires forall j :: 0 <= j < |results| ==> results[j]
    requires WindowBlocks(settings, now)
    requires s.eviction.None?
    ensures var o := GateSpace(s, true, false, tokens, settings, results, now);
      o.verdict == Granted && o.state.eviction.None? &&
      o.effects == [StartEviction(DateWindow), CancelEviction]
  {
    var cx := Context(AsWritten, true, CombinatorOf(settings.multiCondition),
                      settings.restrictDate, ParseWindow(settings), now);
    BlockedAllHeldAsWritten(cx, SpaceTokens(tokens), results, 0, 0, 0, None, []);
  }

  lemma {:induction false} BlockedLoopIntended(cx: Context, scope: seq<Token>, results: seq<bool>, i: nat,
                                               g: nat, d: nat, ev: Option<Denial>, fx: seq<SpaceEffect>)
    requires |results| == |scope| && i <= |scope|
    requires cx.policy == Corrected && cx.inside && Blocked(cx)
    requires cx.cond == Or ==> d == i
    requires ev.Some? || i < |scope|
    ensures var o := Loop(cx, scope, results, i, g, d, ev, fx);
      o.verdict == NotGranted && o.state.eviction.Some?
    decreases |scope| - i
  {
    if i < |scope| && !results[i] {
      var (ev1, fx1) := Schedule(ev, fx, MissingToken(scope[i]));
      if cx.cond == And {
        BlockedLoopIntended(cx, scope, results, i + 1, g, d, ev1, fx1);
      } else if d + 1 == |scope| {
        BlockedLoopIntended(cx, scope, results, i + 1, g, d + 1, ev1, fx1);
      } else {
        BlockedLoopIntended(cx, scope, results, i + 1, g, d + 1, ev, fx);
      }
    }
  }

  /** With a closed date window treated as a denial, a user inside the space
      is never granted and always has a removal pending afterwards. */
  lemma ClosedWindowEvictsIntended(s: SpaceState, tokens: seq<Token>, settings: Settings,
                                   results: seq<bool>, now: DateTime)
    requires |results| == |SpaceTokens(tokens)| && |results| > 0
    requires WindowBlocks(settings, now)
    ensures var o := GateSpaceIntended(s, true, false, tokens, settings, results, now);
      o.verdict == NotGranted && o.state.eviction.Some?
  {
    var cx := Context(Corrected, true, CombinatorOf(settings.multiCondition),
                      settings.restrictDate, ParseWindow(settings), now);
    BlockedLoopIntended(cx, SpaceTokens(tokens), results, 0, 0, 0, s.eviction, []);
  }

  /** A timer cancelled by a grant, an admin or an unload never fires. */
  lemma CancelledTimerNeverFires(policy: Policy, s: SpaceState, inside: bool, isAdmin: bool,
                                 tokens: seq<Token>, settings: Settings, results: seq<bool>, now: DateTime)
    requires |results| == |SpaceTokens(tokens)|
    ensures var o := GateSpaceWith(policy, s, inside, isAdmin, tokens, settings, results, now);
      (o.verdict == Granted || (isAdmin && inside)) ==> FireEviction(o.state).0.None?
    ensures FireEviction(Unload(s).0).0.None?
  {
    GrantAndAdminClearTimer(policy, s, inside, isAdmin, tokens, settings, results, now);
  }

  /** Entering never leaves a removal pending when none was, and a non-admin
      who is admitted gets the periodic re-check. */
  lemma EnterStartsRecheck(policy: Policy, s: SpaceState, isAdmin: bool, tokens: seq<Token>,
                           settings: Settings, results: seq<bool>, now: DateTime)
    requires |results| == |SpaceTokens(tokens)| && s.eviction.None?
    ensures var o := Enter(policy, s, isAdmin, tokens, settings, results, now);
      o.state.eviction.None? &&
      (o.verdict == Granted && !isAdmin ==> o.state.recheck)
  {
    EntryIsDecisive(policy, s, isAdmin, tokens, settings, results, now);
    GateSpaceTimerDiscipline(policy, s, false, isAdmin, tokens, settings, results, now);
    var o := GateSpaceWith(policy, s, false, isAdmin, tokens, settings, results, now);
    NoStartReplay(false, o.effects);
  }

  /** Effects without a start, replayed from "nothing pending", leave nothing pending. */
  lemma {:induction false} NoStartReplay(p: bool, fx: seq<SpaceEffect>)
    requires forall e :: e in fx ==> e == CancelEviction
    requires !p
    ensures Replay(p, fx) == Some(false) || Replay(p, fx).None?
    decreases |fx|
  {
    if |fx| > 0 {
      assert fx[0] in fx;
    }
  }
}

=== FILE: text.dfy ===
/** String helpers with the meaning JavaScript gives them in the gating
    plugin: truthiness of nullable strings, `split`/`join` on a separator,
    decimal rendering of counters and `Number(...)` on digit fields. */
module Text {
  import opened Wrappers

  /** JavaScript truthiness of a nullable string: present and non-empty. */
  predicate Truthy(s: Option<string>) {
    s.Some? && |s.value| > 0
  }

  /** `s.split(c)` for a one-character separator: the pieces between the
      occurrences of `c`, in order; there is always at least one piece. */
  function Split(s: string, c: char): (parts: seq<string>)
    ensures |parts| >= 1
    ensures forall k :: 0 <= k < |parts| ==> c !in parts[k]
    decreases |s|
  {
    if |s| == 0 then [""]
    else
      var rest := Split(s[1..], c);
      if s[0] == c then [""] + rest
      else [[s[0]] + rest[0]] + rest[1..]
  }

  /** `parts.join(sep)`. */
  function Join(parts: seq<string>, sep: string): string
    decreases |parts|
  {
    if |parts| == 0 then ""
    else if |parts| == 1 then parts[0]
    else parts[0] + sep + Join(parts[1..], sep)
  }

  /** Every occurrence of `c` in `s` replaced by `sep`, character by character. */
  function ReplaceAll(s: string, c: char, sep: string): (r: string)
    decreases |s|
  {
    if |s| == 0 then ""
    else (if s[0] == c then sep else [s[0]]) + ReplaceAll(s[1..], c, sep)
  }

  /** Joining after splitting on `c` puts `sep` exactly where each `c` was. */
  lemma {:induction false} JoinSplitIsReplaceAll(s: string, c: char, sep: string)
    ensures Join(Split(s, c), sep) == ReplaceAll(s, c, sep)
    decreases |s|
  {
    if |s| > 0 {
      var rest := Split(s[1..], c);
      JoinSplitIsReplaceAll(s[1..], c, sep);
      if s[0] == c {
        assert Split(s, c) == [""] + rest;
        assert ([""] + rest)[1..] == rest;
      } else {
        var parts := [[s[0]] + rest[0]] + rest[1..];
        assert Split(s, c) == parts;
        if |rest| == 1 {
          assert Join(rest, sep) == rest[0];
        } else {
          assert Join(rest, sep) == rest[0] + sep + Join(rest[1..], sep);
          assert parts[1..] == rest[1..];
        }
      }
    }
  }

  /** Joining the pieces with the separator they were split on gives back the string. */
  lemma JoinSplitRoundTrip(s: string, c: char)
    ensures Join(Split(s, c), [c]) == s
  {
    JoinSplitIsReplaceAll(s, c, [c]);
    ReplaceByItselfIsIdentity(s, c);
  }

  lemma {:induction false} ReplaceByItselfIsIdentity(s: string, c: char)
    ensures ReplaceAll(s, c, [c]) == s
    decreases |s|
  {
    if |s| > 0 {
      ReplaceByItselfIsIdentity(s[1..], c);
      assert s == [s[0]] + s[1..];
    }
  }

  /** With a one-character replacement the string keeps its length and only
      the occurrences of `c` change. */
  lemma {:induction false} ReplaceAllByChar(s: string, c: char, d: char)
    ensures |ReplaceAll(s, c, [d])| == |s|
    ensures forall i :: 0 <= i < |s| ==>
      ReplaceAll(s, c, [d])[i] == (if s[i] == c then d else s[i])
    decreases |s|
  {
    if |s| > 0 {
      ReplaceAllByChar(s[1..], c, d);
      var head := if s[0] == c then [d] else [s[0]];
      assert ReplaceAll(s, c, [d]) == head + ReplaceAll(s[1..], c, [d]);
      forall i | 0 < i < |s|
        ensures ReplaceAll(s, c, [d])[i] == (if s[i] == c then d else s[i])
      {
        assert ReplaceAll(s, c, [d])[i] == ReplaceAll(s[1..], c, [d])[i - 1];
        assert s[1..][i - 1] == s[i];
      }
    }
  }

  /** Splitting a string that contains no separator gives the string itself. */
  lemma {:induction false} SplitWithoutSeparator(s: string, c: char)
    requires c !in s
    ensures Split(s, c) == [s]
    decreases |s|
  {
    if |s| > 0 {
      assert c !in s[1..] by {
        forall k | 0 <= k < |s[1..]| ensures s[1..][k] != c {
          assert s[1..][k] == s[k + 1];
        }
      }
      SplitWithoutSeparator(s[1..], c);
      assert [s[0]] + s[1..] == s;
    }
  }

  /** Splitting `a + [c] + b`, where `a` has no `c`, gives `a` followed by the pieces of `b`. */
  lemma {:induction false} SplitAtFirstSeparator(a: string, c: char, b: string)
    requires c !in a
    ensures Split(a + [c] + b, c) == [a] + Split(b, c)
    decreases |a|
  {
    var s := a + [c] + b;
    if |a| == 0 {
      assert s[0] == c && s[1..] == b;
    } else {
      assert s[0] == a[0];
      assert s[1..] == a[1..] + [c] + b;
      assert c !in a[1..] by {
        forall k | 0 <= k < |a[1..]| ensures a[1..][k] != c {
          assert a[1..][k] == a[k + 1];
        }
      }
      SplitAtFirstSeparator(a[1..], c, b);
      assert [a[0]] + a[1..] == a;
    }
  }

  /** Joining two non-empty lists is joining their two joins. */
  lemma {:induction false} JoinAppend(a: seq<string>, b: seq<string>, sep: string)
    requires |a| > 0 && |b| > 0
    ensures Join(a + b, sep) == Join(a, sep) + sep + Join(b, sep)
    decreases |a|
  {
    if |a| == 1 {
      assert (a + b)[1..] == b;
    } else {
      assert (a + b)[1..] == a[1..] + b;
      JoinAppend(a[1..], b, sep);
    }
  }

  predicate IsDigit(ch: char) {
    '0' <= ch <= '9'
  }

  predicate AllDigits(s: string) {
    forall i :: 0 <= i < |s| ==> IsDigit(s[i])
  }

  function DigitChar(d: nat): (ch: char)
    requires d < 10
    ensures IsDigit(ch) && (ch as int) - ('0' as int) == d
  {
    (('0' as int) + d) as char
  }

  /** Decimal rendering of a counter, as JavaScript template strings print it. */
  function NatToString(n: nat): (s: string)
    ensures |s| >= 1 && AllDigits(s)
    decreases n
  {
    if n < 10 then [DigitChar(n)]
    else NatToString(n / 10) + [DigitChar(n % 10)]
  }

  /** The value of a string of decimal digits (leading zeros allowed). */
  function DigitsValue(s: string): nat
    requires AllDigits(s)
    decreases |s|
  {
    if |s| == 0 then 0
    else DigitsValue(s[..|s| - 1]) * 10 + ((s[|s| - 1] as int) - ('0' as int))
  }

  /** `Number(s)` on a date field: the empty string is 0, a digit string is
      its value, anything else is NaN (`None`). */
  function NumberOf(s: string): (r: Option<nat>)
    ensures r.None? <==> !AllDigits(s)
    ensures s == "" ==> r == Some(0)
  {
    if AllDigits(s) then Some(DigitsValue(s)) else None
  }

  /** Rendering a counter and reading it back gives the counter. */
  lemma {:induction false} NumberOfNatToString(n: nat)
    ensures NumberOf(NatToString(n)) == Some(n)
    decreases n
  {
    var s := NatToString(n);
    if n >= 10 {
      NumberOfNatToString(n / 10);
      assert s[..|s| - 1] == NatToString(n / 10);
      assert DigitsValue(NatToString(n / 10)) == n / 10;
      assert (s[|s| - 1] as int) - ('0' as int) == n % 10;
      assert DigitsValue(s) == (n / 10) * 10 + n % 10;
    }
  }

  /** A string splits into more than one piece exactly when it contains the separator. */
  lemma {:induction false} SplitPieces(s: string, c: char)
    ensures |Split(s, c)| >= 2 <==> c in s
    decreases |s|
  {
    if |s| > 0 {
      SplitPieces(s[1..], c);
      assert s == [s[0]] + s[1..];
    }
  }

  /** A digit string holds no character other than digits. */
  lemma DigitsAvoid(s: string, c: char)
    requires AllDigits(s) && !IsDigit(c)
    ensures c !in s
  {
  }

  /** A leading zero does not change the value of a digit string. */
  lemma {:induction false} LeadingZero(s: string)
    requires AllDigits(s)
    ensures AllDigits("0" + s) && DigitsValue("0" + s) == DigitsValue(s)
    decreases |s|
  {
    var z := "0" + s;
    if |s| > 0 {
      assert z[..|z| - 1] == "0" + s[..|s| - 1];
      LeadingZero(s[..|s| - 1]);
    }
  }
}

=== FILE: tokenlist.dfy ===
/** The plugin's rule list and settings as the `onMessage` handler edits
    them: panel requests (add, update, delete, replace, settings edits) and
    the refresh broadcasts that keep every user's copy in step. */
module TokenList {
  import opened Wrappers
  import opened Text
  import opened Tokens

  /** The short user id, the rule list and the space settings of one plugin instance. */
  datatype PluginState = PluginState(userID: string, tokens: seq<Token>, settings: Settings)

  /** The messages the handler acts on. `GetTokens` and `GetSettings` only
      post the current values back to the panel. `UpdateRegionSettings` is
      `update-settings` sent with a non-empty `regionID`: the host's region
      component takes the one-field edit, and `settings` is that component's
      settings afterwards. A `RefreshSettings` sent for a region carries its id. */
  datatype Message =
    | GetTokens
    | GetSettings
    | AddToken(token: Token)
    | UpdateToken(id: string, update: FieldUpdate)
    | DeleteToken(id: string)
    | SetTokens(tokens: seq<Token>)
    | RefreshTokens(sender: string, tokens: seq<Token>)
    | RefreshSettings(sender: string, region: Option<string>, settings: Settings)
    | UpdateSettings(change: SettingsUpdate)
    | UpdateRegionSettings(regionID: string, settings: Settings)

  /** `tokens[-1][key] = value` throws a TypeError; delete throws its own error. */
  datatype ListError = NoTokenToUpdate | NoTokenToDelete

  /** The part of the host's user id after the last ':' (`split(':').pop()`). */
  function ShortUserId(raw: string): (id: string)
    ensures ':' !in id
  {
    var parts := Split(raw, ':');
    parts[|parts| - 1]
  }

  /** An id without a ':' is its own short form. */
  lemma ShortUserIdPlain(raw: string)
    requires ':' !in raw
    ensures ShortUserId(raw) == raw
  {
    SplitWithoutSeparator(raw, ':');
  }

  /** The short id ignores any prefix ending in ':'. */
  lemma ShortUserIdPrefix(prefix: string, raw: string)
    requires ':' !in prefix
    ensures ShortUserId(prefix + [':'] + raw) == ShortUserId(raw)
  {
    SplitAtFirstSeparator(prefix, ':', raw);
  }

  /** `findIndex(t => t.id == id)`: the first position holding that id, or none. */
  function FindIndex(ts: seq<Token>, id: string): (r: Option<nat>)
    ensures r.Some? ==> r.value < |ts| && ts[r.value].id == id &&
                        forall j :: 0 <= j < r.value ==> ts[j].id != id
    ensures r.None? <==> forall j :: 0 <= j < |ts| ==> ts[j].id != id
    decreases |ts|
  {
    if |ts| == 0 then None
    else if ts[0].id == id then Some(0)
    else match FindIndex(ts[1..], id)
      case None => None
      case Some(k) => Some(k + 1)
  }

  /** `update-token`: set one field of the first rule with that id. */
  function Update(ts: seq<Token>, id: string, u: FieldUpdate): (r: Result<seq<Token>, ListError>)
    ensures r.Failure? <==> forall j :: 0 <= j < |ts| ==> ts[j].id != id
    ensures r.Success? ==> |r.value| == |ts|
    ensures r.Success? ==> forall j :: 0 <= j < |ts| ==>
      r.value[j].id == ts[j].id && r.value[j] == (if j == FindIndex(ts, id).value then Apply(ts[j], u) else ts[j])
  {
    match FindIndex(ts, id)
    case None => Failure(NoTokenToUpdate)
    case Some(k) => Success(ts[k := Apply(ts[k], u)])
  }

  /** `delete-token`: remove the first rule with that id, or throw. */
  function Delete(ts: seq<Token>, id: string): (r: Result<seq<Token>, ListError>)
    ensures r.Failure? <==> forall j :: 0 <= j < |ts| ==> ts[j].id != id
    ensures r.Success? ==> |r.value| + 1 == |ts|
  {
    match FindIndex(ts, id)
    case None => Failure(NoTokenToDelete)
    case Some(k) => Success(ts[..k] + ts[k + 1..])
  }

  /** One message. A refresh from this same user is its own echo and is
      ignored. Only an edit or deletion of an id no rule has fails; rule
      messages leave the settings alone and settings messages the rules. */
  function OnMessage(s: PluginState, m: Message): (r: Result<PluginState, ListError>)
    ensures r.Failure? <==> (m.UpdateToken? || m.DeleteToken?) &&
                            forall j :: 0 <= j < |s.tokens| ==> s.tokens[j].id != m.id
    ensures r.Success? ==> r.value.userID == s.userID
    ensures r.Success? && !m.UpdateSettings? && !m.RefreshSettings? ==> r.value.settings == s.settings
    ensures r.Success? && (m.UpdateSettings? || m.RefreshSettings? || m.GetTokens? || m.GetSettings?) ==>
      r.value.tokens == s.tokens
    ensures m.UpdateRegionSettings? ==> r == Success(s)
    ensures m.RefreshSettings? && m.sender != s.userID ==> r == Success(s.(settings := m.settings))
  {
    match m
    case GetTokens => Success(s)
    case GetSettings => Success(s)
    case AddToken(t) => Success(s.(tokens := s.tokens + [t]))
    case UpdateToken(id, u) =>
      var ts :- Update(s.tokens, id, u);
      Success(s.(tokens := ts))
    case DeleteToken(id) =>
      var ts :- Delete(s.tokens, id);
      Success(s.(tokens := ts))
    case SetTokens(ts) => Success(s.(tokens := ts))
    case RefreshTokens(sender, ts) =>
      if sender == s.userID then Success(s) else Success(s.(tokens := ts))
    case RefreshSettings(sender, _, st) =>
      if sender == s.userID then Success(s) else Success(s.(settings := st))
    case UpdateSettings(u) => Success(s.(settings := ApplySettings(s.settings, u)))
    case UpdateRegionSettings(_, _) => Success(s)
  }

  /** What a handled message broadcasts to the other users, if anything:
      always a refresh signed by this user, never a re-broadcast of a
      refresh, and every change the panel asks for is sent on. */
  function Broadcast(s: PluginState, m: Message): (r: Option<Message>)
    ensures r.Some? ==> OnMessage(s, m).Success?
    ensures r.Some? ==> (r.value.RefreshTokens? || r.value.RefreshSettings?) && r.value.sender == s.userID
    ensures m.RefreshTokens? || m.RefreshSettings? ==> r.None?
    ensures OnMessage(s, m).Success? && OnMessage(s, m).value != s && r.None? ==>
      m.RefreshTokens? || m.RefreshSettings?
  {
    match OnMessage(s, m)
    case Failure(_) => None
    case Success(s1) =>
      if m.AddToken? || m.UpdateToken? || m.DeleteToken? || m.SetTokens? then Some(RefreshTokens(s.userID, s1.tokens))
      else if m.UpdateSettings? then Some(RefreshSettings(s.userID, None, s1.settings))
      else if m.UpdateRegionSettings? then Some(RefreshSettings(s.userID, Some(m.regionID), m.settings))
      else None
  }

  /** A broadcast comes back to its sender as a no-op. Every other user who
      receives it ends up with the sender's rules or space settings, except
      after a region edit: then the region's settings become their space
      settings. */
  lemma BroadcastConverges(s: PluginState, m: Message, peer: PluginState)
    requires Broadcast(s, m).Some?
    requires peer.userID != s.userID
    ensures var s1 := OnMessage(s, m).value;
      OnMessage(s1, Broadcast(s, m).value) == Success(s1) &&
      OnMessage(peer, Broadcast(s, m).value).Success? &&
      OnMessage(peer, Broadcast(s, m).value).value.tokens ==
        (if m.UpdateSettings? || m.UpdateRegionSettings? then peer.tokens else s1.tokens) &&
      OnMessage(peer, Broadcast(s, m).value).value.settings ==
        (if m.UpdateSettings? then s1.settings else if m.UpdateRegionSettings? then m.settings else peer.settings)
  {
    var s1 := OnMessage(s, m).value;
    assert s1.userID == s.userID by {
      match m
      case UpdateToken(id, u) =>
      case DeleteToken(id) =>
      case _ =>
    }
  }

  /** Adding a rule with a fresh id and deleting that id gives the list back. */
  lemma DeleteAfterAdd(ts: seq<Token>, t: Token)
    requires forall j :: 0 <= j < |ts| ==> ts[j].id != t.id
    ensures Delete(ts + [t], t.id) == Success(ts)
  {
    var xs := ts + [t];
    assert xs[|ts|].id == t.id;
    assert forall j :: 0 <= j < |ts| ==> xs[j] == ts[j];
    assert FindIndex(xs, t.id) == Some(|ts|);
    assert xs[..|ts|] + xs[|ts| + 1..] == ts;
  }

  /** Delete removes one rule with that id and keeps the rest. */
  lemma DeleteRemovesOne(ts: seq<Token>, id: string)
    requires Delete(ts, id).Success?
    ensures exists x :: x in ts && x.id == id &&
      multiset(Delete(ts, id).value) + multiset{x} == multiset(ts)
  {
    var k := FindIndex(ts, id).value;
    var before, after := ts[..k], ts[k + 1..];
    assert Delete(ts, id).value == before + after;
    assert ts == before + [ts[k]] + after;
    assert multiset(before + after) + multiset{ts[k]} == multiset(ts);
    assert ts[k] in ts;
  }

  /** Deleting keeps every rule before the first match and every rule after it, in order. */
  lemma DeleteKeepsOrder(ts: seq<Token>, id: string)
    requires Delete(ts, id).Success?
    ensures var k := FindIndex(ts, id).value; var r := Delete(ts, id).value;
      (forall j :: 0 <= j < k ==> r[j] == ts[j]) &&
      (forall j :: k < j < |ts| ==> r[j - 1] == ts[j])
  {
    var k := FindIndex(ts, id).value;
    var r := ts[..k] + ts[k + 1..];
    assert Delete(ts, id).value == r;
    assert forall j :: 0 <= j < k ==> r[j] == ts[..k][j];
    forall j | k < j < |ts|
      ensures r[j - 1] == ts[j]
    {
      assert r[j - 1] == ts[k + 1..][j - 1 - k];
    }
  }

  /** Sending the same field update twice is sending it once. */
  lemma UpdateIdempotent(ts: seq<Token>, id: string, u: FieldUpdate)
    requires Update(ts, id, u).Success?
    ensures Update(Update(ts, id, u).value, id, u) == Update(ts, id, u)
  {
    var r := Update(ts, id, u).value;
    var k := FindIndex(ts, id).value;
    assert r[k] == Apply(ts[k], u);
    ApplyIdempotent(ts[k], u);
    assert r[k].id == id;
    assert FindIndex(r, id) == Some(k);
    assert r[k := Apply(r[k], u)] == r;
  }

  /** `set-tokens` replaces the list wholesale; `add-token` appends. */
  lemma ListReplacements(s: PluginState, t: Token, ts: seq<Token>)
    ensures OnMessage(s, SetTokens(ts)) == Success(s.(tokens := ts))
    ensures OnMessage(s, AddToken(t)).Success? &&
            OnMessage(s, AddToken(t)).value.tokens[..|s.tokens|] == s.tokens &&
            OnMessage(s, AddToken(t)).value.tokens[|s.tokens|] == t
  {
  }

  /** A refresh sent by this same user changes nothing. */
  lemma OwnRefreshIgnored(s: PluginState, ts: seq<Token>, st: Settings)
    ensures OnMessage(s, RefreshTokens(s.userID, ts)) == Success(s)
    ensures OnMessage(s, RefreshSettings(s.userID, None, st)) == Success(s)
  {
  }

  /** As written, a region edit desynchronises the space settings: the sender
      keeps theirs, while every other user's `refresh-settings` handler, which
      never reads `regionID`, takes the region's settings as the space's. */
  lemma RegionRefreshOverwritesSpaceSettings(s: PluginState, peer: PluginState, region: string, st: Settings)
    requires peer.userID != s.userID
    ensures OnMessage(s, UpdateRegionSettings(region, st)) == Success(s)
    ensures Broadcast(s, UpdateRegionSettings(region, st)) == Some(RefreshSettings(s.userID, Some(region), st))
    ensures OnMessage(peer, RefreshSettings(s.userID, Some(region), st)) == Success(peer.(settings := st))
    ensures peer.settings == s.settings && st != s.settings ==>
      OnMessage(peer, RefreshSettings(s.userID, Some(region), st)).value.settings != s.settings
  {
  }

  /** The refresh handler as evidently intended: a refresh sent for a region
      leaves the space settings alone (the region's settings reach its gate
      through `set-region-settings`, as `refresh-tokens` forwards a region's
      rules); every other message is handled as written. */
  function OnMessageIntended(s: PluginState, m: Message): (r: Result<PluginState, ListError>)
    ensures m.RefreshSettings? && m.region.Some? ==> r == Success(s)
    ensures r.Success? ==> r.value.userID == s.userID
    ensures r.Failure? <==> OnMessage(s, m).Failure?
  {
    if m.RefreshSettings? && m.region.Some? then Success(s) else OnMessage(s, m)
  }

  /** With the corrected handler every broadcast converges: the sender's echo
      is a no-op, and each other user ends with the sender's rules or space
      settings, the space settings changing only after a space-level edit. */
  lemma BroadcastConvergesIntended(s: PluginState, m: Message, peer: PluginState)
    requires Broadcast(s, m).Some?
    requires peer.userID != s.userID
    ensures var s1 := OnMessage(s, m).value;
      OnMessageIntended(s1, Broadcast(s, m).value) == Success(s1)
    ensures var s1 := OnMessage(s, m).value;
      var p1 := OnMessageIntended(peer, Broadcast(s, m).value);
      p1.Success? &&
      p1.value.tokens == (if m.UpdateSettings? || m.UpdateRegionSettings? then peer.tokens else s1.tokens) &&
      p1.value.settings == (if m.UpdateSettings? then s1.settings else peer.settings)
    ensures peer.settings == s.settings ==>
      OnMessageIntended(peer, Broadcast(s, m).value).value.settings == OnMessage(s, m).value.settings
  {
    BroadcastConverges(s, m, peer);
  }
}

=== FILE: tokens.dfy ===
/** The records the gating engine works on: token rules with their trait
    filters, the gating settings of a scope, and single-field edits of both
    as the admin panel sends them. */
module Tokens {
  import opened Wrappers
  import opened Text

  /** One attribute filter of a rule; `key` and `value` stay `null` until edited. */
  datatype Trait = Trait(id: string, name: string, key: Option<string>, value: Option<string>)

  /** A token rule as stored by the plugin. Every field the panel may leave
      unset is an `Option`; `network`, `kind` (the source's `type`) and
      `multiTraitCondition` hold the raw strings the engine compares with.
      The panel creates a rule as just `{id, name}` (src-panel/TokenList.js:31),
      so `traits` stays unset until the first trait edit. */
  datatype Token = Token(
    id: string,
    name: string,
    network: Option<string>,
    kind: Option<string>,
    businessID: Option<string>,
    campaignID: Option<string>,
    objectID: Option<string>,
    contractAddress: Option<string>,
    validAddress: Option<bool>,
    minAmountHeld: int,
    traits: Option<seq<Trait>>,
    multiTraitCondition: Option<string>,
    regionID: Option<string>,
    zoneID: Option<string>,
    denialMessage: Option<string>)

  /** The trait list as `constructQuery` sees it behind its
      `token.traits && …` guard: an unset list is no traits. */
  function TraitsOf(t: Token): (ts: seq<Trait>)
    ensures t.traits.Some? ==> ts == t.traits.value
    ensures t.traits.None? ==> ts == []
  {
    if t.traits.Some? then t.traits.value else []
  }

  /** Gating settings of the space or of one region. */
  datatype Settings = Settings(
    restrictDate: bool,
    dateFrom: Option<string>,
    dateTo: Option<string>,
    multiCondition: Option<string>)

  /** The settings a scope starts with before anything is saved. */
  const DefaultSettings := Settings(false, None, None, Some("and"))

  /** How several results are combined. */
  datatype Combinator = And | Or

  /** Only the exact string "and" selects conjunction; anything else, including
      an unset field, falls to the `else` branch, which is disjunction. */
  function CombinatorOf(raw: Option<string>): (c: Combinator)
    ensures c == And <==> raw == Some("and")
  {
    if raw == Some("and") then And else Or
  }

  /** Why access was refused: a closed date window, or the rule that was not met. */
  datatype Denial = DateWindow | MissingToken(token: Token)

  /** A rule gates the whole space when its `regionID` is unset or empty. */
  predicate InSpaceScope(t: Token) {
    !Truthy(t.regionID)
  }

  /** A rule gates the region whose id is `zoneId`. */
  predicate InRegionScope(t: Token, zoneId: string) {
    t.regionID == Some(zoneId)
  }

  /** The panel's two choices, "and" and "or" (src-panel/Settings.js:43 and
      src-panel/Token.js:156), select conjunction and disjunction; so do the
      defaults, which store "and". The Select's labels "And" and "Or" are
      never stored, and would both select disjunction, as an unset field does. */
  lemma PanelChoicesSelect()
    ensures CombinatorOf(Some("and")) == And && CombinatorOf(Some("or")) == Or
    ensures CombinatorOf(DefaultSettings.multiCondition) == And
    ensures CombinatorOf(Some("And")) == Or && CombinatorOf(None) == Or
  {
  }

  /** A rule belongs to at most one of the two scopes: no real region id is empty. */
  lemma ScopesAreDisjoint(t: Token, zoneId: string)
    requires zoneId != ""
    ensures !(InSpaceScope(t) && InRegionScope(t, zoneId))
  {
  }

  /** One field of a token, as an `update-token` message carries it. */
  datatype FieldUpdate =
    | SetName(name: string)
    | SetNetwork(network: Option<string>)
    | SetKind(kind: Option<string>)
    | SetBusinessID(businessID: Option<string>)
    | SetCampaignID(campaignID: Option<string>)
    | SetObjectID(objectID: Option<string>)
    | SetContractAddress(contractAddress: Option<string>)
    | SetValidAddress(validAddress: Option<bool>)
    | SetMinAmountHeld(minAmountHeld: int)
    | SetTraits(traits: seq<Trait>)
    | SetMultiTraitCondition(multiTraitCondition: Option<string>)
    | SetRegionID(regionID: Option<string>)
    | SetZoneID(zoneID: Option<string>)
    | SetDenialMessage(denialMessage: Option<string>)

  /** `token[key] = value` for the one key the update names: the id never
      changes, and only a `regionID` edit can move the rule to another scope. */
  function Apply(t: Token, u: FieldUpdate): (r: Token)
    ensures r.id == t.id
    ensures !u.SetRegionID? ==> r.regionID == t.regionID
    ensures u.SetTraits? ==> r.traits.Some?
  {
    match u
    case SetName(v) => t.(name := v)
    case SetNetwork(v) => t.(network := v)
    case SetKind(v) => t.(kind := v)
    case SetBusinessID(v) => t.(businessID := v)
    case SetCampaignID(v) => t.(campaignID := v)
    case SetObjectID(v) => t.(objectID := v)
    case SetContractAddress(v) => t.(contractAddress := v)
    case SetValidAddress(v) => t.(validAddress := v)
    case SetMinAmountHeld(v) => t.(minAmountHeld := v)
    case SetTraits(v) => t.(traits := Some(v))
    case SetMultiTraitCondition(v) => t.(multiTraitCondition := v)
    case SetRegionID(v) => t.(regionID := v)
    case SetZoneID(v) => t.(zoneID := v)
    case SetDenialMessage(v) => t.(denialMessage := v)
  }

  /** Field updates applied one after the other, as successive messages. */
  function ApplyAll(t: Token, us: seq<FieldUpdate>): Token
    decreases |us|
  {
    if |us| == 0 then t else ApplyAll(Apply(t, us[0]), us[1..])
  }

  /** Setting a field twice to the same value is setting it once; the id is never touched. */
  lemma ApplyIdempotent(t: Token, u: FieldUpdate)
    ensures Apply(Apply(t, u), u) == Apply(t, u)
    ensures Apply(t, u).id == t.id
  {
  }

  /** The panel's "Zone ID" field writes `zoneID`, which the engine never
      reads: editing it leaves the rule's scope as it was. */
  lemma ZoneFieldDoesNotRescope(t: Token, z: Option<string>, zoneId: string)
    ensures InSpaceScope(Apply(t, SetZoneID(z))) == InSpaceScope(t)
    ensures InRegionScope(Apply(t, SetZoneID(z)), zoneId) == InRegionScope(t, zoneId)
  {
  }

  /** One field of the settings, as an `update-settings` message carries it. */
  datatype SettingsUpdate =
    | SetRestrictDate(restrictDate: bool)
    | SetDateFrom(dateFrom: Option<string>)
    | SetDateTo(dateTo: Option<string>)
    | SetMultiCondition(multiCondition: Option<string>)

  function ApplySettings(s: Settings, u: SettingsUpdate): Settings {
    match u
    case SetRestrictDate(v) => s.(restrictDate := v)
    case SetDateFrom(v) => s.(dateFrom := v)
    case SetDateTo(v) => s.(dateTo := v)
    case SetMultiCondition(v) => s.(multiCondition := v)
  }

  /** String concatenation of a nullable value prints `null` for a missing one. */
  function Show(s: Option<string>): string {
    match s
    case Some(v) => v
    case None => "null"
  }

  /** The line `key - value` listing one trait in a denial message. */
  function TraitLine(t: Trait): string {
    Show(t.key) + " - " + Show(t.value)
  }

  function TraitLines(traits: seq<Trait>): (lines: seq<string>)
    ensures |lines| == |traits|
    ensures forall i :: 0 <= i < |traits| ==> lines[i] == TraitLine(traits[i])
    decreases |traits|
  {
    if |traits| == 0 then [] else [TraitLine(traits[0])] + TraitLines(traits[1..])
  }

  /** `tokenTraitsToString`: one line per trait, in order, separated by `sep`. */
  function TokenTraitsToString(traits: seq<Trait>, sep: string): (r: string)
    ensures |traits| == 0 ==> r == ""
    ensures |traits| == 1 ==> r == TraitLine(traits[0])
  {
    Join(TraitLines(traits), sep)
  }

  /** A listing of several traits starts with the first trait's line and one
      separator, followed by the listing of the rest. */
  lemma TokenTraitsToStringCons(traits: seq<Trait>, sep: string)
    requires |traits| > 1
    ensures TokenTraitsToString(traits, sep) == TraitLine(traits[0]) + sep + TokenTraitsToString(traits[1..], sep)
  {
    assert TraitLines(traits)[1..] == TraitLines(traits[1..]);
  }

  /** The listing of two trait lists is their listings joined by one separator. */
  lemma TokenTraitsToStringAppend(a: seq<Trait>, b: seq<Trait>, sep: string)
    requires |a| > 0 && |b| > 0
    ensures TokenTraitsToString(a + b, sep)
         == TokenTraitsToString(a, sep) + sep + TokenTraitsToString(b, sep)
  {
    assert TraitLines(a + b) == TraitLines(a) + TraitLines(b);
    JoinAppend(TraitLines(a), TraitLines(b), sep);
  }
}

=== FILE: traiteditor.dfy ===
/** The admin panel's edits of one rule (`src-panel/Token.js`): adding,
    deleting and filling in traits, and the field updates sent when a
    contract address is entered. Each edit produces the new trait list or the
    `update-token` field changes the plugin then applies. */
module TraitEditor {
  import opened Wrappers
  import opened Text
  import opened Tokens
  import Query

  /** The default name of the n-th trait. */
  function TraitName(n: nat): string {
    "Trait " + NatToString(n)
  }

  /** `addTrait`: a new, empty trait named after the new list length is
      appended; `freshId` stands for the generated uuid. */
  function AddTrait(ts: seq<Trait>, freshId: string): (r: seq<Trait>)
    ensures |r| == |ts| + 1 && r[..|ts|] == ts
    ensures r[|ts|].id == freshId && r[|ts|].key.None? && r[|ts|].value.None?
  {
    ts + [Trait(freshId, TraitName(|ts| + 1), None, None)]
  }

  /** The new trait's name reads back as the new length. */
  lemma AddTraitName(ts: seq<Trait>, freshId: string)
    ensures var name := AddTrait(ts, freshId)[|ts|].name;
      name[..6] == "Trait " && NumberOf(name[6..]) == Some(|ts| + 1)
  {
    var name := AddTrait(ts, freshId)[|ts|].name;
    assert name[6..] == NatToString(|ts| + 1);
    NumberOfNatToString(|ts| + 1);
  }

  /** A new, empty trait is never used by a query until both its key and
      value are filled in. */
  lemma AddedTraitNotUsed(ts: seq<Trait>, freshId: string)
    ensures Query.UsableTraits(AddTrait(ts, freshId)) == Query.UsableTraits(ts)
  {
    Query.UsableTraitsAppend(ts, [Trait(freshId, TraitName(|ts| + 1), None, None)]);
    Query.UsableTraitsSingle(Trait(freshId, TraitName(|ts| + 1), None, None));
  }

  /** `deleteTrait`: keep every trait whose id differs. */
  function DeleteTrait(ts: seq<Trait>, id: string): (r: seq<Trait>)
    ensures |r| <= |ts|
    ensures forall k :: 0 <= k < |r| ==> r[k].id != id
    decreases |ts|
  {
    if |ts| == 0 then []
    else if ts[0].id == id then DeleteTrait(ts[1..], id)
    else [ts[0]] + DeleteTrait(ts[1..], id)
  }

  /** Exactly the traits with another id survive. */
  lemma {:induction false} DeleteTraitMembers(ts: seq<Trait>, id: string)
    ensures forall t :: t in DeleteTrait(ts, id) <==> t in ts && t.id != id
    decreases |ts|
  {
    if |ts| > 0 {
      DeleteTraitMembers(ts[1..], id);
      assert ts == [ts[0]] + ts[1..];
    }
  }

  /** Deleting works piecewise, so the survivors keep their relative order. */
  lemma {:induction false} DeleteTraitAppend(a: seq<Trait>, b: seq<Trait>, id: string)
    ensures DeleteTrait(a + b, id) == DeleteTrait(a, id) + DeleteTrait(b, id)
    decreases |a|
  {
    if |a| == 0 {
      assert a + b == b;
    } else {
      DeleteTraitAppend(a[1..], b, id);
      assert (a + b)[1..] == a[1..] + b;
    }
  }

  /** A list without that id is left as it is. */
  lemma {:induction false} DeleteTraitAbsent(ts: seq<Trait>, id: string)
    requires forall k :: 0 <= k < |ts| ==> ts[k].id != id
    ensures DeleteTrait(ts, id) == ts
    decreases |ts|
  {
    if |ts| > 0 {
      DeleteTraitAbsent(ts[1..], id);
      assert ts == [ts[0]] + ts[1..];
    }
  }

  /** Deleting a trait just added with a fresh id gives the list back. */
  lemma DeleteAfterAddTrait(ts: seq<Trait>, freshId: string)
    requires forall k :: 0 <= k < |ts| ==> ts[k].id != freshId
    ensures DeleteTrait(AddTrait(ts, freshId), freshId) == ts
  {
    var t := Trait(freshId, TraitName(|ts| + 1), None, None);
    DeleteTraitAppend(ts, [t], freshId);
    DeleteTraitAbsent(ts, freshId);
    assert DeleteTrait([t], freshId) == [];
  }

  /** Deleting twice is deleting once. */
  lemma DeleteTraitIdempotent(ts: seq<Trait>, id: string)
    ensures DeleteTrait(DeleteTrait(ts, id), id) == DeleteTrait(ts, id)
  {
    DeleteTraitAbsent(DeleteTrait(ts, id), id);
  }

  /** Writing to `traits[-1]` throws a TypeError. */
  datatype TraitError = NoSuchTrait

  /** `findIndex` over the traits (src-panel/Token.js:47); it mirrors
      `TokenList.FindIndex`, which searches the rules the same way. */
  function FindTrait(ts: seq<Trait>, id: string): (r: Option<nat>)
    ensures r.Some? ==> r.value < |ts| && ts[r.value].id == id &&
                        forall j :: 0 <= j < r.value ==> ts[j].id != id
    ensures r.None? <==> forall j :: 0 <= j < |ts| ==> ts[j].id != id
    decreases |ts|
  {
    if |ts| == 0 then None
    else if ts[0].id == id then Some(0)
    else match FindTrait(ts[1..], id)
      case None => None
      case Some(k) => Some(k + 1)
  }

  /** The edit `updateTrait` makes to the matched trait: a non-empty new key
      or value overwrites; an empty or missing one leaves the old. */
  function Merge(current: Trait, patch: Trait): Trait {
    current.(key := if Truthy(patch.key) then patch.key else current.key,
             value := if Truthy(patch.value) then patch.value else current.value)
  }

  /** `updateTrait`: edit the first trait with the patch's id. With no such
      trait, the write throws unless there was nothing to write. */
  function UpdateTrait(ts: seq<Trait>, patch: Trait): (r: Result<seq<Trait>, TraitError>)
    ensures r.Failure? <==>
      (Truthy(patch.key) || Truthy(patch.value)) && forall j :: 0 <= j < |ts| ==> ts[j].id != patch.id
    ensures r.Success? ==> |r.value| == |ts|
  {
    match FindTrait(ts, patch.id)
    case None => if Truthy(patch.key) || Truthy(patch.value) then Failure(NoSuchTrait) else Success(ts)
    case Some(k) => Success(ts[k := Merge(ts[k], patch)])
  }

  /** Only the first trait with that id changes, and only in the fields the
      patch fills in; ids, names and every other trait stay. */
  lemma UpdateTraitFrame(ts: seq<Trait>, patch: Trait)
    requires UpdateTrait(ts, patch).Success?
    ensures var r := UpdateTrait(ts, patch).value;
      forall j :: 0 <= j < |ts| ==>
        r[j].id == ts[j].id && r[j].name == ts[j].name &&
        (r[j] != ts[j] ==> FindTrait(ts, patch.id) == Some(j)) &&
        (FindTrait(ts, patch.id) == Some(j) ==>
           r[j].key == (if Truthy(patch.key) then patch.key else ts[j].key) &&
           r[j].value == (if Truthy(patch.value) then patch.value else ts[j].value))
  {
  }

  /** Applying the same edit twice is applying it once. */
  lemma UpdateTraitIdempotent(ts: seq<Trait>, patch: Trait)
    requires UpdateTrait(ts, patch).Success?
    ensures UpdateTrait(UpdateTrait(ts, patch).value, patch) == UpdateTrait(ts, patch)
  {
    var r := UpdateTrait(ts, patch).value;
    match FindTrait(ts, patch.id)
    case None =>
    case Some(k) =>
      assert r[k].id == patch.id;
      assert FindTrait(r, patch.id) == Some(k);
      assert r[k := Merge(r[k], patch)] == r;
  }

  /** A key or value once set can be replaced but never cleared from here. */
  lemma UpdateTraitNeverClears(ts: seq<Trait>, patch: Trait, j: nat)
    requires UpdateTrait(ts, patch).Success? && j < |ts|
    ensures Truthy(ts[j].key) ==> Truthy(UpdateTrait(ts, patch).value[j].key)
    ensures Truthy(ts[j].value) ==> Truthy(UpdateTrait(ts, patch).value[j].value)
  {
  }

  /** Filling in both the key and the value of a trait makes the query use it. */
  lemma FilledTraitIsUsed(ts: seq<Trait>, patch: Trait)
    requires Truthy(patch.key) && Truthy(patch.value)
    requires exists j :: 0 <= j < |ts| && ts[j].id == patch.id
    ensures UpdateTrait(ts, patch).Success?
    ensures Query.Usable(UpdateTrait(ts, patch).value[FindTrait(ts, patch.id).value])
  {
  }

  /** `validateContractAddress`: the `update-token` field changes sent, in
      order. An empty address first clears both fields, then falls through to
      the validation like any other address. */
  function ValidateContractAddress(address: string, isAddress: string -> bool): (us: seq<FieldUpdate>)
    ensures |us| == (if |address| == 0 then 4 else 2)
    ensures |address| == 0 ==> us[..2] == [SetContractAddress(None), SetValidAddress(None)]
    ensures us[|us| - 2..] == [SetContractAddress(Some(address)), SetValidAddress(Some(isAddress(address)))]
  {
    var cleared := if |address| == 0 then [SetContractAddress(None), SetValidAddress(None)] else [];
    cleared + [SetContractAddress(Some(address)), SetValidAddress(Some(isAddress(address)))]
  }

  /** Storing an address and then its verdict sets exactly those two fields. */
  lemma ApplyAddressPair(t: Token, a: Option<string>, v: Option<bool>)
    ensures ApplyAll(t, [SetContractAddress(a), SetValidAddress(v)]) == t.(contractAddress := a, validAddress := v)
  {
    var t1 := Apply(t, SetContractAddress(a));
    assert t1 == t.(contractAddress := a);
    assert [SetContractAddress(a), SetValidAddress(v)][1..] == [SetValidAddress(v)];
    assert ApplyAll(t1, [SetValidAddress(v)]) == ApplyAll(Apply(t1, SetValidAddress(v)), []);
  }

  /** Whatever the address, once the updates are applied the rule holds that
      raw address and the validator's verdict on it, and nothing else changed. */
  lemma ValidateContractAddressResult(t: Token, address: string, isAddress: string -> bool)
    ensures ApplyAll(t, ValidateContractAddress(address, isAddress))
         == t.(contractAddress := Some(address), validAddress := Some(isAddress(address)))
  {
    var us := ValidateContractAddress(address, isAddress);
    var tail := [SetContractAddress(Some(address)), SetValidAddress(Some(isAddress(address)))];
    if |address| == 0 {
      var t0 := t.(contractAddress := None, validAddress := None);
      ApplyAddressPair(t, None, None);
      assert us == [SetContractAddress(None), SetValidAddress(None)] + tail;
      ApplyAllAppend(t, [SetContractAddress(None), SetValidAddress(None)], tail);
      ApplyAddressPair(t0, Some(address), Some(isAddress(address)));
    } else {
      assert us == tail;
      ApplyAddressPair(t, Some(address), Some(isAddress(address)));
    }
  }

  lemma {:induction false} ApplyAllAppend(t: Token, a: seq<FieldUpdate>, b: seq<FieldUpdate>)
    ensures ApplyAll(t, a + b) == ApplyAll(ApplyAll(t, a), b)
    decreases |a|
  {
    if |a| > 0 {
      assert (a + b)[1..] == a[1..] + b;
      ApplyAllAppend(Apply(t, a[0]), a[1..], b);
    } else {
      assert a + b == b;
    }
  }
}

=== FILE: wrappers.dfy ===
/** Failure-carrying datatypes used throughout the model: `Option` for the
    source's nullable values and `Result` for operations that throw. */
module Wrappers {

  /** A value that may be absent (`null` / `undefined` in the source). */
  datatype Option<+T> = None | Some(value: T) {

    /** The carried value, or `default` when absent. */
    function GetOr(default: T): T {
      match this
      case Some(v) => v
      case None => default
    }
  }

  /** The outcome of an operation that either returns a value or throws. */
  datatype Result<+R, +E> = Success(value: R) | Failure(error: E) {

    predicate IsFailure() {
      Failure?
    }

    function PropagateFailure<U>(): Result<U, E>
      requires Failure?
    {
      Failure(error)
    }

    function Extract(): R
      requires Success?
    {
      value
    }
  }
}
